=== FILE: README.md ===
# finelytics ledger core in Dafny

This project models the server-side core of finelytics, a personal-finance
web app. Users keep accounts (current or savings) and record income and
expense transactions against them, which may recur daily, weekly, monthly
or yearly. Each user can set one monthly budget, and a scheduled job flags
the budget once a month when spending reaches 80% of it.

The model replaces the database with an in-memory `Ledger.Store`. The store
holds the account table and the transaction table as sequences in row
order, and the budget table as a map keyed by its unique owner column. Each
server action becomes a pure function of the store. A mutating action returns
an `Outcome`: the store after the action, plus either the value returned or
the error message thrown. A read-only action returns only its value:
`BudgetActions.GetCurrentBudget` and `AccountActions.GetAccountWithTransactions`
return a `Result`, and `DashboardActions.GetUserAccounts` returns the listing
itself. Things the action gets from outside are parameters:

- the logged-in user;
- the rate limiter's decision;
- the id and creation time the database assigns to a new row;
- today's date;
- the texts of errors that other code raises (`TransactionActions.ForeignErrors`): the database client's "not found" and "invalid date" messages, and the engine's message for calling something that is not a function.

Modules:

- `Results`: `Option` and `Result`.
- `Calendar`: proleptic Gregorian dates at day granularity.
  - The next and previous day, and `DaysLater` (n steps of `NextDay`) as the reference for adding days.
  - `Normalize`: how a JavaScript `Date` carries an out-of-range month or day into the neighbouring month or year. `AddDays`, `AddMonths` and `AddYears` are `setDate`, `setMonth` and `setFullYear`.
- `Text`: ECMAScript white space and `String.prototype.trim`, `trimStart` and `trimEnd`.
- `Decimal`: `parseFloat` as a decimal-prefix parser (sign, digits, optional fraction) over text that has had its leading white space skipped.
- `Ordering`: filtering, and ordering newest first, with permutation contracts.
- `Ledger`: the tables, the lookups the actions share, the expense sum and the store invariants. The invariants are unique account ids, at most one default account per user, a default for every user who has accounts, and budgets keyed by owner.
- `TransactionActions`: `createTransaction` and `getNextRecurringDate`.
- `BudgetActions`: `getCurrentBudget` (the month window and the expense sum) and `updateBudget` (validation and upsert).
- `BudgetAlerts`: the per-budget decision of the scheduled budget check, and `isNewMonth`.
- `AccountActions`: `updateDefaultAccount` and `getAccountWithTransactions`.
- `DashboardActions`: `createAccount` and `getUserAccounts`.
- `AccountSchema`: the account form's validation schema.
- `ReceiptText`: `cleanResponseText`, which removes code fences from a receipt-scan reply.

## Model

| member | source | states |
|---|---|---|
| TransactionActions.Advance | actions/transaction.js:79-86 | The step the interval map takes. It throws exactly for "__proto__", "__defineGetter__" and "__defineSetter__", the keys inherited from `Object.prototype` that are not callable without arguments. Any other tag the map does not own leaves the date as it is. DAILY is the next calendar day, WEEKLY 7 days later, MONTHLY the same day next month or its overflow, YEARLY the same day next year with 29 February becoming 1 March; each lands strictly later. |
| TransactionActions.NextRecurringDate | actions/transaction.js:76-88 | No next date unless the transaction recurs with a non-empty interval. Otherwise it throws exactly when the interval's step throws. DAILY is the next calendar day; WEEKLY is 7 days later; MONTHLY is the same day of the next month, carried into the month after when that month is too short; YEARLY is the same day next year, with 29 February becoming 1 March. Any other tag that does not throw keeps the date itself. Every known interval lands strictly after the input. An invalid start date gives the Invalid Date. |
| TransactionActions.RecurrenceWithInheritedTag | actions/transaction.js:79-86 | "constructor" keeps the date; "__proto__" and "__defineGetter__" throw, even for an invalid date; a non-recurring transaction tagged "__proto__" has no next date. |
| TransactionActions.MonthlyRecurrenceFromJanuary31 | actions/transaction.js:82 | A monthly recurrence from 31 January 2023 falls on 3 March 2023. |
| TransactionActions.MonthlyRecurrenceFromJanuary31LeapYear | actions/transaction.js:82 | A monthly recurrence from 31 January 2024 falls on 2 March 2024. |
| TransactionActions.YearlyRecurrenceFromLeapDay | actions/transaction.js:83 | A yearly recurrence from 29 February 2024 falls on 1 March 2025. |
| TransactionActions.RecurrenceWithoutStep | actions/transaction.js:77-87 | An unknown tag keeps the date rather than giving null. A transaction that does not recur, or has an empty interval, has no next date. |
| TransactionActions.Reported | actions/transaction.js:70-72 | The reported message is never empty: it is the error's own message, or "An error occurred" when that is empty. |
| TransactionActions.SetBalance | actions/transaction.js:58-61 | The update writes the new balance into the row with the account's id and leaves every other row, and every other field, as it was. |
| TransactionActions.CreateTransaction | actions/transaction.js:15-74 | Rate-limit and other denials fail with their own messages. An account the user does not own fails with the database client's not-found message. A recurring entry whose interval step throws fails with the engine's message, before the insert. An invalid date fails with the client's invalid-date message. Every failure leaves the store unchanged. It succeeds exactly when the request is allowed, the account is the user's, the interval step does not throw and the date is valid. On success, exactly one row is appended; it carries the form's fields, the logged-in user (whatever the form says), the new id and time, and the next recurring date. The account's balance moves by minus the amount for an expense and plus it otherwise; no other account and no budget changes. |
| TransactionActions.CreateTransactionKeepsBalancesInStep | actions/transaction.js:43-64 | For every account, the balance minus the signed sum of its transactions is the same before and after: the row and the balance change together. |
| TransactionActions.CreateTransactionPreservesWellFormed | actions/transaction.js:49-64 | Creating a transaction keeps the store's invariants. |
| TransactionActions.CreateTransactionKeepsDatesValid | actions/transaction.js:49-56 | Only rows with a valid date are ever added. |
| TransactionActions.InheritedTagScenario | actions/transaction.js:49-72 | A recurring transaction tagged "__proto__" fails with the engine's not-callable message, and nothing is written. |
| TransactionActions.ExpenseScenario | actions/transaction.js:43-64 | A 200 expense on a 1000 account leaves 800, and records a single row owned by the logged-in user even when the form names someone else. |
| Calendar.DaysInMonth | actions/budget.js:21-25 | Months have 28 to 31 days: 29 exactly for February of a leap year, 28 exactly for February of any other year. |
| Calendar.NextDayIsNext | actions/transaction.js:80 | Any valid date later than d is on or after d's next day: no valid date lies strictly between a date and the next day. |
| Calendar.PreviousDayUndoesNextDay | actions/transaction.js:80 | Stepping a day forward and a day back, in either order, returns the date. |
| Calendar.RollDaysSuccessor | actions/transaction.js:80-81 | Carrying day j + 1 into range lands on the day after carrying day j. |
| Calendar.DaysLaterAdd | actions/transaction.js:80-81 | Moving a + b days forward is moving a days and then b days. |
| Calendar.AddDaysIsDaysLater | actions/transaction.js:80-81 | `setDate(getDate() + n)` for n ≥ 0 is n steps of the next day. |
| Calendar.AddDaysRoundTrip | actions/transaction.js:80-81 | Adding n days and then -n days returns the date, for every integer n. |
| Calendar.MonthStepForward | actions/budget.js:21-25 | Day d of month m + 1 is day d counted from the first of the next month, also from December into January. |
| Calendar.AddOneMonth | actions/transaction.js:82 | `setMonth(getMonth() + 1)` keeps the day when the next month has it, and otherwise overflows into the month after. The result is strictly later. |
| Calendar.AddOneMonthRoundTrip | actions/transaction.js:82 | When the next month has the day, adding a month and taking it away returns the date. |
| Calendar.AddOneMonthEndOfJanuaryNotUndone | actions/transaction.js:82 | After an overflow the round trip fails: 31 January 2023 plus a month, minus a month, is 3 February 2023. |
| Calendar.AddOneYear | actions/transaction.js:83 | `setFullYear(getFullYear() + 1)` keeps month and day, except that 29 February becomes 1 March. The result is strictly later. |
| Calendar.AddOneYearRoundTrip | actions/transaction.js:83 | For a valid date other than 29 February, adding a year and then subtracting one gives the same date; for 29 February it gives 1 March of the same year. |
| BudgetActions.MonthStart | actions/budget.js:16-20 | The window starts on a valid date, day 1 of today's month. |
| BudgetActions.DayZeroOfNextMonth | actions/budget.js:21-25 | Day 0 of the next month is the last day of this month, also in December, where the next month is in the next year. |
| BudgetActions.MonthEnd | actions/budget.js:21-25 | The window ends on a valid date, the last day of today's month, in every month including December. |
| BudgetActions.InMonthWindow | actions/budget.js:15-37 | A valid date is inside the window exactly when it is in today's calendar month. |
| BudgetActions.MonthWindowInDecember | actions/budget.js:21-25 | On 31 December 2023 the window is 1 to 31 December 2023. |
| BudgetActions.MonthWindowInLeapFebruary | actions/budget.js:21-25 | In February 2024 the window ends on the 29th. |
| BudgetActions.MonthWindowInFebruary | actions/budget.js:21-25 | In February 2023 the window ends on the 28th. |
| BudgetActions.WindowTotalIsMonthTotal | actions/budget.js:30-49 | The sum of the user's expenses on the account within the window equals an independent per-calendar-month sum. |
| BudgetActions.GetCurrentBudget | actions/budget.js:6-58 | A missing account id fails with "accountId is required". Otherwise the budget is present exactly when the user has one, and it is theirs. Current expenses are the user's expense amounts on the account dated in this month, and 0 when there are none. |
| BudgetActions.UpdateBudget | actions/budget.js:60-92 | A non-number or a negative amount fails with the validation message and changes nothing; zero is accepted. Otherwise the user's budget row is upserted with the amount: an existing row keeps its id and alert date, and a new row has no alert date. Nothing else changes. |
| BudgetActions.UpdateBudgetPreservesWellFormed | actions/budget.js:66-77 | The upsert keeps one budget per user. |
| BudgetActions.UpdateThenReadBudget | actions/budget.js:6-77 | After a successful update, reading the budget returns the row just written, with the given amount. |
| BudgetActions.UpdateBudgetIdempotent | actions/budget.js:66-77 | Repeating the same update changes nothing more. |
| BudgetActions.ExpenseCountsTowardsCurrentBudget | actions/budget.js:30-49 | Recording an expense dated in this month raises that account's current expenses by exactly its amount. |
| BudgetAlerts.IsNewMonth | lib/inngest/functions.js:57-62 | A month is new exactly when the two dates are not in the same calendar month of the same year. |
| BudgetAlerts.IsNewMonthIsOtherMonth | lib/inngest/functions.js:57-62 | `isNewMonth` is true exactly when month or year differ. It is symmetric and false for equal dates. |
| BudgetAlerts.ThresholdReached | lib/inngest/functions.js:39-43 | With a positive budget it fires exactly when 5·total ≥ 4·budget, which is 80%. With a zero budget, any positive total gives Infinity and fires, and a zero total gives NaN and does not. A negative budget reverses the inequality. |
| BudgetAlerts.CheckBudget | lib/inngest/functions.js:21-52 | A budget either stays as it was or gets `lastAlertSent` set to now and nothing else. A budget whose user has no default account stays as it was, and so does one already alerted this calendar month. |
| BudgetAlerts.CheckBudgetAlerts | lib/inngest/functions.js:8-54 | Only budgets change, and only their alert dates; the accounts, the transactions and the set of budgets are untouched. The skip cases hold for every budget. |
| BudgetAlerts.CheckBudgetAlertsFires | lib/inngest/functions.js:25-50 | For a user with a default account, the budget ends with an alert dated now exactly when: the expenses on the default account within the window reach the threshold and no alert was sent in another month (or at all); or the alert was already dated now. |
| BudgetAlerts.NoSecondAlertInAMonth | lib/inngest/functions.js:42-62 | A second run later in the same month changes no budget. |
| BudgetAlerts.CheckBudgetAlertsThisMonth | lib/inngest/functions.js:21-52 | The run with the window set to the current month, as intended. Only alert dates change: each budget either stays as it was or gets an alert dated now. A budget whose user has no default account stays as it was. |
| BudgetAlerts.AlertMatchesBudgetCard | lib/inngest/functions.js:25-46 | Over the current month, the alert fires exactly when the expenses the budget card shows for the default account reach the threshold and no alert was sent this month. |
| BudgetAlerts.AlertScenario | lib/inngest/functions.js:21-50 | 850 spent this month against a 1000 budget, never alerted, records an alert. |
| BudgetAlerts.CheckBudgetAlertsAsWritten | lib/inngest/functions.js:21-38 | The job as written fails whenever some budget's user has a default account, and it never changes the store. |
| BudgetAlerts.AsWrittenMissesEveryAlert | lib/inngest/functions.js:24-32 | Whenever the intended job would record an alert, the job as written fails instead. |
| BudgetAlerts.AsWrittenScenario | lib/inngest/functions.js:24-32 | In the alert scenario, the job as written fails and the budget keeps no alert date. |
| AccountActions.UpdateDefaultAccount | actions/accounts.js:14-74 | It fails with "Account not found", changing nothing, exactly when the id is not one of the user's accounts. Otherwise it returns the target, now default. Only default flags change, and only on the user's rows. Afterwards, among the user's rows, exactly the target's are default. |
| AccountActions.MarkDefault | actions/accounts.js:51-59 | Only the row with the target id that belongs to the user becomes default; its other fields and every other row are unchanged. |
| AccountActions.UpdateDefaultAccountPreservesWellFormed | actions/accounts.js:41-59 | Switching the default keeps ids unique, at most one default per user, and a default for every user with accounts. |
| AccountActions.UpdateDefaultAccountSetsDefault | actions/accounts.js:41-59 | Afterwards the user's default account is the target. |
| AccountActions.UpdateDefaultAccountIdempotent | actions/accounts.js:41-59 | Switching to the same account twice gives the same store and result as once. |
| AccountActions.GetAccountWithTransactions | actions/accounts.js:76-127 | It fails with "Account not found" exactly when the account is not the user's. Otherwise it returns that account with every one of its transactions, counted with multiplicity, newest first. The count is the number of transactions. |
| AccountActions.AccountListingIsComplete | actions/accounts.js:92-117 | A transaction is listed exactly when it is in the store and recorded against the account. |
| DashboardActions.CreateAccount | actions/dashboard.js:15-76 | A balance that does not parse fails with "Invalid balance" and changes nothing. Otherwise one account is appended with the user, the fields and the parsed balance. It is default exactly when it is the user's first account or the form asks for it. The user's other rows lose their default flag exactly when the new one is default; other rows are untouched. |
| DashboardActions.CreateAccountPreservesWellFormed | actions/dashboard.js:40-61 | Opening an account keeps ids unique, at most one default per user, and a default for every user with accounts. |
| DashboardActions.FirstAccountIsDefault | actions/dashboard.js:40-41 | A user's first account is their default, whatever the form says. |
| DashboardActions.GetUserAccounts | actions/dashboard.js:93-99 | The listing is the user's accounts, each with its multiplicity, ordered newest first. |
| DashboardActions.GetUserAccountsMembers | actions/dashboard.js:93-96 | An account is listed exactly when it is in the store and belongs to the user. |
| DashboardActions.CreatedAccountIsListed | actions/dashboard.js:54-99 | An account newer than every existing row is listed first after it is opened. |
| AccountSchema.ParseAccountType | app/lib/schema.js:11-13 | The type is accepted exactly when it is CURRENT or SAVINGS. |
| AccountSchema.ValidateAccount | app/lib/schema.js:9-22 | The form is valid exactly when three things hold: the name is not blank, the type is known, and the trimmed balance parses to a number that is not negative. A valid form holds the trimmed name and balance texts, and its default flag is false unless given as true. An invalid form lists at least one issue, and a field has an issue exactly when its check failed. |
| AccountSchema.IssuesByField | app/lib/schema.js:10-20 | The issues are empty exactly when no check failed, and each field is named exactly when its check failed. |
| AccountSchema.BlankBalanceReportedTwice | app/lib/schema.js:14-20 | An empty or white-space balance reports "Initial balance is required" twice, once for the length check and once for the refinement. |
| AccountSchema.ZeroBalanceAccepted | app/lib/schema.js:18-20 | "0" is accepted. |
| AccountSchema.TrailingTextBalanceAccepted | app/lib/schema.js:18-20 | "12abc" is accepted. |
| AccountSchema.BadBalancesRejected | app/lib/schema.js:18-20 | "-5" and "abc" are rejected. |
| AccountSchema.ValidFormOpensAccount | app/lib/schema.js:14-20 | A form the schema accepts always gets past `createAccount`'s own balance check, and opens an account whose balance is not negative. |
| Text.Trim | app/lib/schema.js:10 | The trimmed text has no white space at either end and is no longer than the input. |
| Text.TrimIsSlice | app/lib/schema.js:10 | Trimming removes only white space, and only from the two ends. |
| Text.TrimEmptyIff | app/lib/schema.js:10 | The trimmed text is empty exactly when the input is all white space. |
| Text.TrimIdempotent | app/lib/schema.js:10 | Trimming twice is trimming once. |
| Text.TrimStartOfPadded | app/lib/schema.js:10 | White space put before a text that does not start with white space is exactly what `trimStart` removes. |
| Text.TrimIgnoresTrailingWhiteSpace | actions/transaction.js:176 | Appending white space to a text does not change its trimmed form. |
| Decimal.ParseFloat | actions/dashboard.js:30-33 | The text parses exactly when, after leading white space and one optional sign, it starts with a digit or with a point followed by a digit; in particular text without a digit does not parse. A negative result only comes from a leading minus sign, and a leading minus never gives a positive result. |
| Decimal.ParseFloatMisplacedDigitsExample | actions/dashboard.js:30-33 | Digits that do not start the text give no number: "a5" and "+-5" do not parse. |
| Decimal.ParseFloatOfNatToDecimal | actions/dashboard.js:30 | The decimal numeral of a natural number parses back to that number. |
| Decimal.ParseFloatOfNumeral | actions/dashboard.js:30 | After any white space and an optional sign, digits, a point and digits (not both runs empty) followed by a non-digit parse to ±(whole + fraction / 10^k), where k is the number of fraction digits; the sign is minus exactly for "-". |
| Decimal.ParseFloatOfInteger | actions/dashboard.js:30 | After any white space and an optional sign, digits followed by neither a digit nor a point parse to ± their value. |
| Decimal.ParseFloatOfPadded | actions/dashboard.js:30 | After white space and a sign, the value is read from the rest of the text, negative exactly for "-". |
| Decimal.ParseFloatOfDigits | actions/dashboard.js:30 | A run of digits followed by text that starts with neither a digit nor a point parses to the value of the digits. |
| Decimal.ParseFloatNegativeExample | app/lib/schema.js:18 | "-5" parses to -5. |
| Decimal.ParseFloatLettersExample | app/lib/schema.js:18 | "abc" does not parse. |
| Decimal.ParseFloatLonePointExample | actions/dashboard.js:30-33 | "." does not parse. |
| Decimal.ParseFloatLoneSignExample | actions/dashboard.js:30-33 | "-" does not parse. |
| Decimal.ParseFloatFractionExample | actions/dashboard.js:30 | " 3.25" parses to 3.25: leading white space is skipped. |
| Decimal.ParseFloatBareFractionExample | actions/dashboard.js:30 | ".5" parses to 0.5. |
| ReceiptText.StripFences | actions/transaction.js:176 | Removing the fence markers never lengthens the text. |
| ReceiptText.StripFencesLeavesNoFence | actions/transaction.js:176 | No three backticks in a row survive the replacement. |
| ReceiptText.StripFencesWithoutBackticks | actions/transaction.js:176 | Text without backticks passes through unchanged. |
| ReceiptText.CleanResponseText | actions/transaction.js:175-177 | The cleaned reply has no white space at either end and is no longer than the input. |
| ReceiptText.CleanResponseTextHasNoFence | actions/transaction.js:175-177 | The cleaned reply holds no fence marker. |
| ReceiptText.CleanResponseTextOfPlainReply | actions/transaction.js:175-177 | A reply without backticks is only trimmed. |
| ReceiptText.StripFencesBeforeClosingFence | actions/transaction.js:176 | In backtick-free text followed by a closing fence, only the fence is removed. |
| ReceiptText.CleanFencedReply | actions/transaction.js:175-177 | For every backtick-free body, a reply of "```json", a line feed, the body, a line feed and "```" cleans to the trimmed body. |
| ReceiptText.CleanFencedJsonExample | actions/transaction.js:175-177 | A reply of "```json", a line feed, "{}", a line feed and "```" cleans to "{}". |
| Ledger.FindOwnedAccount | actions/accounts.js:36-39 | The lookup finds an account with the id and owner exactly when one exists. |
| Ledger.DefaultAccount | lib/inngest/functions.js:8-23 | The lookup finds one of the user's default accounts exactly when the user has one. |
| Ledger.DefaultAccountIsUnique | lib/inngest/functions.js:22 | When a user has at most one default, the lookup returns that one. |
| Ledger.ClearDefaults | actions/accounts.js:41-49 | Every one of the user's rows ends with its default flag cleared; every other row is unchanged. |
| Ledger.ExpenseTotalAppend | actions/budget.js:30-43 | The expense sum over two runs of rows is the sum of the two sums. |
| Ledger.ExpenseTotal | lib/inngest/functions.js:25-39 | Only the user's expenses on the account dated in the window count: with no such row the sum is 0, and with non-negative amounts it is non-negative. |
| Ordering.SortDesc | actions/accounts.js:98-102 | The result is a permutation of the input, ordered by key from largest to smallest. |
| Ordering.Filter | actions/dashboard.js:93-96 | The result keeps each element the test accepts, with its multiplicity, and nothing else. |

## Left out

- Authentication, and the "Unauthorized" and "User not found" failures: the logged-in user is a parameter. Clerk, Prisma, Arcjet and `revalidatePath` are not modelled.
- The rate limiter is an input (`TransactionActions.Decision`). Its logging is left out.
- Receipt scanning other than `cleanResponseText` (the generative-model call, base64 conversion, `JSON.parse`): foreign calls.
- Email sending (actions/send-email.js), and the recurring-transaction processor and monthly reports named by the Inngest route: their definitions are not part of this model.
- Inngest steps, cron schedule and retries: the budget check is one sequential pass over the budgets.
- Concurrency. Each action is a single step, so two races are not modelled: `createTransaction` reading the balance outside its database transaction (a lost update), and the clear-then-set of default flags not being atomic.
- Time zones, daylight saving and time of day: dates are whole days. `endOfMonth` is midnight at the start of the last day, so a transaction later that day is missed. The model counts the whole last day.
- `DashboardActions.GetUserAccounts`: does not model the per-account `_count` of transactions, a separate aggregate.
- `Decimal.ParseFloat`: does not parse `Infinity` or exponents ("1e3" reads as 1), and its results are exact reals rather than floating-point numbers. Balances and amounts are `real` throughout.
- `BudgetAlerts.ThresholdReached`: reproduces the zero-budget edge (Infinity fires, NaN does not) but uses exact arithmetic otherwise. A NaN budget amount is not modelled.
- `BudgetActions.UpdateBudget`: states that the returned row belongs to the user only when the budget table is keyed by owner, which the database's unique key guarantees.
- `BudgetActions.GetCurrentBudget`: states which budget is found only when the budget table is keyed by owner, for the same reason. Its expense sum is stated against the month total only for valid dates.
- `createTransaction` trusts the form's amount and type, as the code does: negative amounts and unknown types are not rejected, and any type other than EXPENSE counts as income.
- `createAccount` accepts a negative balance, as the code does; only the form's schema rejects one. An `isDefault` that is not a boolean is not modelled.
- The schema follows zod 3: a failed length check does not stop the refinement, so a blank balance is reported twice.
- `getNextRecurringDate` looks the tag up through the prototype chain. The model names the three inherited keys whose call throws; every other inherited key ("constructor", "toString" and the rest) is a method that returns without touching the date, so the date is kept, as for any tag the map does not have.
- The texts of the database client's errors (an account that is not found, a date it cannot store) and of the engine's TypeError are parameters (`TransactionActions.ForeignErrors`): they belong to the client and the engine, and change between their versions.

## Findings

| source | as written | input that shows it | evidently intended | confidence | as-written member | corrected member |
|---|---|---|---|---|---|---|
| lib/inngest/functions.js:31-32 | The expense window uses `startOfMonth` and `endOfMonth`, which the module never declares or imports. Each step throws "startOfMonth is not defined" before it can record an alert. | One budget of 1000 whose user has a default account with an 850 expense this month: the step throws, and `lastAlertSent` stays unset. | The window runs from the first to the last day of the current month, as in `getCurrentBudget`, and the alert is recorded. | high; not executed | BudgetAlerts.AsWrittenMissesEveryAlert | BudgetAlerts.CheckBudgetAlertsThisMonth |

=== FILE: account_actions.dfy ===
/**
  The account page's two server actions: switching the default account, and
  reading one account with its transactions newest first.
 */
module AccountActions {
  import opened Results
  import opened Ledger
  import opened Ordering

  const MsgAccountNotFound := "Account not found"

  // ---------------------------------------------------------------------------
  // updateDefaultAccount
  // ---------------------------------------------------------------------------

  /** `account.update({ where: { id, userId }, data: { isDefault: true } })` */
  function MarkDefault(accounts: seq<Account>, id: AccountId, user: UserId): (r: seq<Account>)
    ensures |r| == |accounts|
    ensures forall i :: 0 <= i < |r| && accounts[i].id == id && accounts[i].userId == user ==>
              r[i] == accounts[i].(isDefault := true)
    ensures forall i :: 0 <= i < |r| && !(accounts[i].id == id && accounts[i].userId == user) ==>
              r[i] == accounts[i]
  {
    seq(|accounts|, i requires 0 <= i < |accounts| =>
      if accounts[i].id == id && accounts[i].userId == user then accounts[i].(isDefault := true)
      else accounts[i])
  }

  /** `updateDefaultAccount(accountId)` by `user`: the account must be one of
      the user's; every default flag of the user is cleared, then the target's
      is set. */
  function UpdateDefaultAccount(s: Store, user: UserId, accountId: AccountId): (o: Outcome<Account>)
    ensures o.result.Err? <==> FindOwnedAccount(s.accounts, accountId, user).None?
    ensures o.result.Err? ==> o == Outcome(s, Err(MsgAccountNotFound))
    ensures o.result.Ok? ==>
              o.result.value.id == accountId && o.result.value.userId == user &&
              o.result.value.isDefault && o.result.value in o.store.accounts
    ensures o.store.transactions == s.transactions && o.store.budgets == s.budgets
    ensures |o.store.accounts| == |s.accounts|
    // Only default flags change, and only the user's.
    ensures forall i :: 0 <= i < |s.accounts| ==>
              o.store.accounts[i].(isDefault := s.accounts[i].isDefault) == s.accounts[i]
    ensures forall i :: 0 <= i < |s.accounts| && s.accounts[i].userId != user ==>
              o.store.accounts[i] == s.accounts[i]
    // Afterwards the target is the user's one and only default.
    ensures o.result.Ok? ==>
              forall i :: 0 <= i < |s.accounts| && s.accounts[i].userId == user ==>
                (o.store.accounts[i].isDefault <==> s.accounts[i].id == accountId)
  {
    match FindOwnedAccount(s.accounts, accountId, user)
    case None => Outcome(s, Err(MsgAccountNotFound))
    case Some(target) =>
      var cleared := ClearDefaults(s.accounts, user);
      var marked := MarkDefault(cleared, accountId, user);
      var k :| 0 <= k < |s.accounts| && s.accounts[k] == target;
      assert marked[k] == target.(isDefault := true);
      Outcome(Store(marked, s.transactions, s.budgets), Ok(target.(isDefault := true)))
  }

  /** Switching the default keeps the store well formed. */
  lemma UpdateDefaultAccountPreservesWellFormed(s: Store, user: UserId, accountId: AccountId)
    requires WellFormed(s)
    ensures WellFormed(UpdateDefaultAccount(s, user, accountId).store)
  {
    var o := UpdateDefaultAccount(s, user, accountId);
    if o.result.Ok? {
      var a, b := s.accounts, o.store.accounts;
      var k :| 0 <= k < |a| && a[k].id == accountId && a[k].userId == user;
      assert SwitchesDefault(a, b, user, accountId, k);
      SwitchKeepsIdsUnique(a, b, user, accountId, k);
      SwitchKeepsOneDefault(a, b, user, accountId, k);
      SwitchKeepsADefault(a, b, user, accountId, k);
    }
  }

  /** The shape of the account table after `updateDefaultAccount` makes row
      `k`, the user's account `accountId`, the default. */
  predicate SwitchesDefault(a: seq<Account>, b: seq<Account>, user: UserId, accountId: AccountId, k: int) {
    |b| == |a| && 0 <= k < |a| && a[k].id == accountId && a[k].userId == user &&
    forall i :: 0 <= i < |a| ==>
      b[i].(isDefault := a[i].isDefault) == a[i] &&
      (a[i].userId != user ==> b[i] == a[i]) &&
      (a[i].userId == user ==> (b[i].isDefault <==> a[i].id == accountId))
  }

  lemma SwitchKeepsIdsUnique(a: seq<Account>, b: seq<Account>, user: UserId, accountId: AccountId, k: int)
    requires SwitchesDefault(a, b, user, accountId, k) && UniqueAccountIds(a)
    ensures UniqueAccountIds(b)
  {
    assert forall i :: 0 <= i < |a| ==> b[i].id == a[i].id;
  }

  lemma SwitchKeepsOneDefault(a: seq<Account>, b: seq<Account>, user: UserId, accountId: AccountId, k: int)
    requires SwitchesDefault(a, b, user, accountId, k) && UniqueAccountIds(a) && AtMostOneDefault(a)
    ensures AtMostOneDefault(b)
  {
    assert forall i :: 0 <= i < |a| ==> b[i].id == a[i].id && b[i].userId == a[i].userId;
  }

  lemma SwitchKeepsADefault(a: seq<Account>, b: seq<Account>, user: UserId, accountId: AccountId, k: int)
    requires SwitchesDefault(a, b, user, accountId, k) && DefaultWhenOwned(a)
    ensures DefaultWhenOwned(b)
  {
    forall i | 0 <= i < |b| ensures HasDefault(b, b[i].userId) {
      assert b[i].userId == a[i].userId;
      if a[i].userId == user {
        assert b[k].userId == b[i].userId && b[k].isDefault;
      } else {
        var j :| 0 <= j < |a| && a[j].userId == a[i].userId && a[j].isDefault;
        assert b[j] == a[j];
      }
    }
  }

  /** Under the store's invariants, the target becomes what every later
      lookup of the user's default account finds. */
  lemma UpdateDefaultAccountSetsDefault(s: Store, user: UserId, accountId: AccountId)
    requires WellFormed(s)
    requires FindOwnedAccount(s.accounts, accountId, user).Some?
    ensures var o := UpdateDefaultAccount(s, user, accountId);
            o.result.Ok? && DefaultAccount(o.store.accounts, user) == Some(o.result.value)
  {
    var o := UpdateDefaultAccount(s, user, accountId);
    UpdateDefaultAccountPreservesWellFormed(s, user, accountId);
    DefaultAccountIsUnique(o.store.accounts, user, o.result.value);
  }

  /** Choosing the same default twice is the same as choosing it once. */
  lemma UpdateDefaultAccountIdempotent(s: Store, user: UserId, accountId: AccountId)
    ensures var o := UpdateDefaultAccount(s, user, accountId);
            var o2 := UpdateDefaultAccount(o.store, user, accountId);
            o2.store == o.store && o2.result == o.result
  {
    var o := UpdateDefaultAccount(s, user, accountId);
    var o2 := UpdateDefaultAccount(o.store, user, accountId);
    if o.result.Ok? {
      var a, b := o.store.accounts, o2.store.accounts;
      assert FindOwnedAccount(a, accountId, user).Some?;
      assert forall i :: 0 <= i < |a| ==> b[i] == a[i];
      assert o2.store.accounts == o.store.accounts;
      var t1 := FindOwnedAccount(s.accounts, accountId, user).value;
      var t2 := FindOwnedAccount(a, accountId, user).value;
      assert t2.(isDefault := true) == t1.(isDefault := true) by {
        FindOwnedAccountIsFirst(s.accounts, a, accountId, user);
      }
    }
  }

  /** Two account tables whose rows differ only in their default flags give
      the same lookup result, up to that flag. */
  lemma {:induction false} FindOwnedAccountIsFirst(a: seq<Account>, b: seq<Account>, id: AccountId, user: UserId)
    requires |a| == |b|
    requires forall i :: 0 <= i < |a| ==> b[i].(isDefault := a[i].isDefault) == a[i]
    ensures FindOwnedAccount(a, id, user).Some? <==> FindOwnedAccount(b, id, user).Some?
    ensures FindOwnedAccount(a, id, user).Some? ==>
              FindOwnedAccount(b, id, user).value.(isDefault := true)
              == FindOwnedAccount(a, id, user).value.(isDefault := true)
    decreases |a|
  {
    if |a| > 0 {
      assert b[0].id == a[0].id && b[0].userId == a[0].userId;
      FindOwnedAccountIsFirst(a[1..], b[1..], id, user);
    }
  }

  // ---------------------------------------------------------------------------
  // getAccountWithTransactions
  // ---------------------------------------------------------------------------

  /** The account row together with its transactions and their count. */
  datatype AccountDetail = AccountDetail(account: Account, transactions: seq<Transaction>, transactionCount: nat)

  function TransactionCreatedAt(t: Transaction): int {
    t.createdAt
  }

  /** `getAccountWithTransactions(accountId)` by `user`. */
  function GetAccountWithTransactions(s: Store, user: UserId, accountId: AccountId): (r: Result<AccountDetail>)
    ensures r.Err? <==> FindOwnedAccount(s.accounts, accountId, user).None?
    ensures r.Err? ==> r == Err(MsgAccountNotFound)
    ensures r.Ok? ==> r.value.account == FindOwnedAccount(s.accounts, accountId, user).value
    ensures r.Ok? ==>
              forall t :: multiset(r.value.transactions)[t] ==
                if t.accountId == accountId then multiset(s.transactions)[t] else 0
    ensures r.Ok? ==> SortedDesc(r.value.transactions, TransactionCreatedAt)
    ensures r.Ok? ==> r.value.transactionCount == |r.value.transactions|
  {
    match FindOwnedAccount(s.accounts, accountId, user)
    case None => Err(MsgAccountNotFound)
    case Some(account) =>
      var mine := Filter(s.transactions, (t: Transaction) => t.accountId == accountId);
      var ordered := SortDesc(mine, TransactionCreatedAt);
      Ok(AccountDetail(account, ordered, |ordered|))
  }

  /** The listing shows every transaction recorded against the account and
      nothing else, and its count is how many there are. */
  lemma AccountListingIsComplete(s: Store, user: UserId, accountId: AccountId, t: Transaction)
    requires FindOwnedAccount(s.accounts, accountId, user).Some?
    ensures var r := GetAccountWithTransactions(s, user, accountId);
            r.Ok? && (t in r.value.transactions <==> t in s.transactions && t.accountId == accountId)
  {
    var r := GetAccountWithTransactions(s, user, accountId);
    assert t in r.value.transactions <==> t in multiset(r.value.transactions);
    assert t in s.transactions <==> t in multiset(s.transactions);
  }
}

=== FILE: account_schema.dfy ===
/**
  The account form's validation schema: a non-blank name, one of the two
  account types, a balance text that parses to a non-negative number, and a
  default flag that is false unless given. Text fields are trimmed before
  they are checked, and the trimmed text is what the form hands on.
 */
module AccountSchema {
  import opened Results
  import opened Ledger
  import Text
  import Decimal
  import DashboardActions

  const MsgNameRequired := "Name is required"
  const MsgInvalidType := "Invalid account type"
  const MsgInvalidBalance := "Initial balance is required"

  /** The raw form values; `isDefault` may be absent. */
  datatype AccountFormInput = AccountFormInput(name: string, kind: string, balance: string, isDefault: Option<bool>)

  /** The parsed form. */
  datatype AccountForm = AccountForm(name: string, kind: AccountType, balance: string, isDefault: bool)

  datatype Field = NameField | TypeField | BalanceField

  /** One validation issue, reported against a form field. */
  datatype FieldError = FieldError(field: Field, message: string)

  datatype Validation = Valid(form: AccountForm) | Invalid(errors: seq<FieldError>)

  /** `z.enum(["CURRENT", "SAVINGS"])` */
  function ParseAccountType(kind: string): (r: Option<AccountType>)
    ensures r == Some(Current) <==> kind == "CURRENT"
    ensures r == Some(Savings) <==> kind == "SAVINGS"
  {
    if kind == "CURRENT" then Some(Current)
    else if kind == "SAVINGS" then Some(Savings)
    else None
  }

  /** The balance refinement: the text parses to a number that is not negative. */
  predicate BalanceAcceptable(balance: string) {
    Decimal.ParseFloat(balance).Some? && Decimal.ParseFloat(balance).value >= 0.0
  }

  /** Whether some issue in `errors` is reported against `field`. */
  predicate Mentions(errors: seq<FieldError>, field: Field) {
    exists i :: 0 <= i < |errors| && errors[i].field == field
  }

  /** The issues in the order the schema reports them: name, type, then
      balance. Both balance checks run on the trimmed text, so a blank
      balance reports the same message twice: once for being empty and once
      for not parsing. */
  function Issues(nameBlank: bool, typeInvalid: bool, balanceBlank: bool, balanceRejected: bool): seq<FieldError> {
    (if nameBlank then [FieldError(NameField, MsgNameRequired)] else [])
    + (if typeInvalid then [FieldError(TypeField, MsgInvalidType)] else [])
    + (if balanceBlank then [FieldError(BalanceField, MsgInvalidBalance)] else [])
    + (if balanceRejected then [FieldError(BalanceField, MsgInvalidBalance)] else [])
  }

  /** `accountSchema.safeParse(input)` */
  function ValidateAccount(input: AccountFormInput): (r: Validation)
    ensures r.Valid? <==>
              !Text.AllWhiteSpace(input.name) && ParseAccountType(input.kind).Some? &&
              BalanceAcceptable(Text.Trim(input.balance))
    ensures r.Valid? ==>
              r.form.name == Text.Trim(input.name) && |r.form.name| > 0 &&
              Some(r.form.kind) == ParseAccountType(input.kind) &&
              r.form.balance == Text.Trim(input.balance) &&
              r.form.isDefault == (input.isDefault == Some(true))
    ensures r.Invalid? ==> |r.errors| > 0
    ensures r.Invalid? ==>
              (Mentions(r.errors, NameField) <==> Text.AllWhiteSpace(input.name)) &&
              (Mentions(r.errors, TypeField) <==> ParseAccountType(input.kind).None?) &&
              (Mentions(r.errors, BalanceField) <==> !BalanceAcceptable(Text.Trim(input.balance)))
  {
    Text.TrimEmptyIff(input.name);
    var name := Text.Trim(input.name);
    var balance := Text.Trim(input.balance);
    BlankBalanceNotAcceptable(balance);
    var errors := Issues(name == [], ParseAccountType(input.kind).None?, balance == [], !BalanceAcceptable(balance));
    if errors == [] then
      Valid(AccountForm(name, ParseAccountType(input.kind).value, balance,
                        if input.isDefault.Some? then input.isDefault.value else false))
    else
      IssuesByField(name == [], ParseAccountType(input.kind).None?, balance == [], !BalanceAcceptable(balance));
      Invalid(errors)
  }

  /** Each field is named by an issue exactly when its check failed. */
  lemma IssuesByField(nameBlank: bool, typeInvalid: bool, balanceBlank: bool, balanceRejected: bool)
    requires balanceBlank ==> balanceRejected
    ensures var errors := Issues(nameBlank, typeInvalid, balanceBlank, balanceRejected);
            (|errors| == 0 <==> !nameBlank && !typeInvalid && !balanceRejected) &&
            (Mentions(errors, NameField) <==> nameBlank) &&
            (Mentions(errors, TypeField) <==> typeInvalid) &&
            (Mentions(errors, BalanceField) <==> balanceRejected)
  {
    var n := if nameBlank then [FieldError(NameField, MsgNameRequired)] else [];
    var t := if typeInvalid then [FieldError(TypeField, MsgInvalidType)] else [];
    var b1 := if balanceBlank then [FieldError(BalanceField, MsgInvalidBalance)] else [];
    var b2 := if balanceRejected then [FieldError(BalanceField, MsgInvalidBalance)] else [];
    forall f: Field ensures Mentions(n + t + b1 + b2, f) <==> Mentions(n, f) || Mentions(t, f) || Mentions(b1, f) || Mentions(b2, f) {
      MentionsConcat(n, t, f);
      MentionsConcat(n + t, b1, f);
      MentionsConcat(n + t + b1, b2, f);
    }
    assert nameBlank ==> n[0].field == NameField;
    assert typeInvalid ==> t[0].field == TypeField;
    assert balanceRejected ==> b2[0].field == BalanceField;
  }

  lemma BlankBalanceNotAcceptable(balance: string)
    ensures balance == [] ==> !BalanceAcceptable(balance)
  {
  }

  lemma MentionsConcat(a: seq<FieldError>, b: seq<FieldError>, field: Field)
    ensures Mentions(a + b, field) <==> Mentions(a, field) || Mentions(b, field)
  {
    if Mentions(a, field) {
      var i :| 0 <= i < |a| && a[i].field == field;
      assert (a + b)[i] == a[i];
    }
    if Mentions(b, field) {
      var i :| 0 <= i < |b| && b[i].field == field;
      assert (a + b)[|a| + i] == b[i];
    }
    if Mentions(a + b, field) {
      var i :| 0 <= i < |a + b| && (a + b)[i].field == field;
      if i < |a| {
        assert a[i] == (a + b)[i];
      } else {
        assert b[i - |a|] == (a + b)[i];
      }
    }
  }

  // ---------------------------------------------------------------------------
  // The form and the action
  // ---------------------------------------------------------------------------

  /** The action's input built from a parsed form. */
  function ToAccountInput(form: AccountForm): DashboardActions.AccountInput {
    DashboardActions.AccountInput(form.name, form.kind, form.balance, form.isDefault)
  }

  /** A form the schema accepts always gets past the action's own balance
      check, and the account opens with a non-negative balance. */
  lemma ValidFormOpensAccount(input: AccountFormInput, s: Store, user: UserId, newId: AccountId, now: int)
    requires AccountIdUnused(s.accounts, newId)
    requires ValidateAccount(input).Valid?
    ensures var o := DashboardActions.CreateAccount(s, user, ToAccountInput(ValidateAccount(input).form), newId, now);
            o.result.Ok? && o.result.value.balance >= 0.0
  {
  }

  // ---------------------------------------------------------------------------
  // Examples
  // ---------------------------------------------------------------------------

  /** A zero balance is accepted. */
  lemma ZeroBalanceAccepted()
    ensures BalanceAcceptable("0")
  {
    Decimal.ParseFloatZeroExample();
  }

  /** Text after the number does not matter: "12abc" is accepted as 12. */
  lemma TrailingTextBalanceAccepted()
    ensures BalanceAcceptable("12abc")
  {
    Decimal.ParseFloatTrailingTextExample();
  }

  /** A negative balance, or one that is not a number, is rejected. */
  lemma BadBalancesRejected()
    ensures !BalanceAcceptable("-5")
    ensures !BalanceAcceptable("abc")
  {
    Decimal.ParseFloatNegativeExample();
    Decimal.ParseFloatLettersExample();
  }

  /** A blank balance (empty or only white space) reports its message twice. */
  lemma BlankBalanceReportedTwice(name: string, kind: string, balance: string, isDefault: Option<bool>)
    requires Text.Trim(name) != [] && ParseAccountType(kind).Some?
    requires Text.AllWhiteSpace(balance)
    ensures ValidateAccount(AccountFormInput(name, kind, balance, isDefault))
            == Invalid([FieldError(BalanceField, MsgInvalidBalance), FieldError(BalanceField, MsgInvalidBalance)])
  {
    var input := AccountFormInput(name, kind, balance, isDefault);
    Text.TrimEmptyIff(balance);
    assert Text.Trim(input.balance) == [];
    BlankBalanceNotAcceptable([]);
    assert !BalanceAcceptable(Text.Trim(input.balance));
    var errors := Issues(Text.Trim(input.name) == [], ParseAccountType(input.kind).None?, Text.Trim(input.balance) == [], !BalanceAcceptable(Text.Trim(input.balance)));
    assert errors == [FieldError(BalanceField, MsgInvalidBalance), FieldError(BalanceField, MsgInvalidBalance)];
    assert ValidateAccount(input) == Invalid(errors);
  }
}

=== FILE: budget_actions.dfy ===
/**
  The budget card's server actions: the user's budget with the current
  month's expenses on one account, and setting the budget amount.
 */
module BudgetActions {
  import opened Results
  import opened Calendar
  import opened Ledger
  import TransactionActions

  const MsgAccountIdRequired := "accountId is required"
  const MsgInvalidAmount := "Invalid amount: Amount must be a positive number."

  // ---------------------------------------------------------------------------
  // The current month
  // ---------------------------------------------------------------------------

  /** `new Date(today.getFullYear(), today.getMonth(), 1)`: the first day of
      today's month. */
  function MonthStart(today: Date): (r: Date)
    ensures IsValid(r)
    ensures IsValid(today) ==> r == Date(today.year, today.month, 1)
  {
    Normalize(today.year, today.month, 1)
  }

  /** Day 0 of the month after month `m` rolls back to the last day of `m`,
      also in December, where the next month is in the next year. */
  lemma DayZeroOfNextMonth(y: int, m: int)
    ensures 1 <= m <= 12 ==> Normalize(y, m + 1, 0) == Date(y, m, DaysInMonth(y, m))
  {
    if 1 <= m <= 12 {
      var n := FirstOfNextMonth(y, m);
      MonthStepForward(y, m, 0);
      var p := FirstOfPreviousMonth(n.year, n.month);
      assert p == Date(y, m, 1);
      RollDaysFromPreviousMonth(n.year, n.month, 0);
    }
  }

  /** `new Date(today.getFullYear(), today.getMonth() + 1, 0)`: day 0 of the
      next month, which JavaScript reads as the last day of this one. */
  function MonthEnd(today: Date): (r: Date)
    ensures IsValid(r)
    ensures IsValid(today) ==> r == Date(today.year, today.month, DaysInMonth(today.year, today.month))
  {
    DayZeroOfNextMonth(today.year, today.month);
    Normalize(today.year, today.month + 1, 0)
  }

  /** A real date lies in the window exactly when it is in today's month. */
  lemma InMonthWindow(today: Date, d: Date)
    requires IsValid(today) && IsValid(d)
    ensures OnOrBefore(MonthStart(today), d) && OnOrBefore(d, MonthEnd(today)) <==> SameMonth(d, today)
  {
  }

  /** On 31 December the window is the whole of December. */
  lemma MonthWindowInDecember()
    ensures MonthStart(Date(2023, 12, 31)) == Date(2023, 12, 1)
    ensures MonthEnd(Date(2023, 12, 31)) == Date(2023, 12, 31)
  {
  }

  /** February ends on the 29th in a leap year ... */
  lemma MonthWindowInLeapFebruary()
    ensures MonthEnd(Date(2024, 2, 10)) == Date(2024, 2, 29)
  {
  }

  /** ... and on the 28th otherwise. */
  lemma MonthWindowInFebruary()
    ensures MonthEnd(Date(2023, 2, 10)) == Date(2023, 2, 28)
  {
  }

  // ---------------------------------------------------------------------------
  // getCurrentBudget
  // ---------------------------------------------------------------------------

  /** An expense of `user` on account `id` dated in the month of `month`. */
  predicate ExpenseInMonth(t: Transaction, user: UserId, id: AccountId, month: Date) {
    t.userId == user && t.accountId == id && t.kind == Expense && SameMonth(t.date, month)
  }

  /** The amounts of the month's expenses, added up directly. */
  function MonthExpenseTotal(transactions: seq<Transaction>, user: UserId, id: AccountId, month: Date): real {
    if |transactions| == 0 then 0.0
    else
      var t := transactions[|transactions| - 1];
      MonthExpenseTotal(transactions[..|transactions| - 1], user, id, month)
      + (if ExpenseInMonth(t, user, id, month) then t.amount else 0.0)
  }

  /** Summing over the date window is summing over the calendar month. */
  lemma {:induction false} WindowTotalIsMonthTotal(ts: seq<Transaction>, user: UserId, id: AccountId, today: Date)
    ensures IsValid(today) && DatesValid(ts) ==>
              ExpenseTotal(ts, user, id, MonthStart(today), MonthEnd(today)) == MonthExpenseTotal(ts, user, id, today)
    decreases |ts|
  {
    if |ts| > 0 && IsValid(today) && DatesValid(ts) {
      var init := ts[..|ts| - 1];
      assert forall i :: 0 <= i < |init| ==> init[i] == ts[i];
      WindowTotalIsMonthTotal(init, user, id, today);
      InMonthWindow(today, ts[|ts| - 1].date);
    }
  }

  /** What the budget card shows: the budget row, if any, and the month's
      expenses so far. */
  datatype BudgetSummary = BudgetSummary(budget: Option<Budget>, currentExpenses: real)

  /** `getCurrentBudget(accountId)` by `user` on day `today`. An empty
      `accountId` stands for a missing one. */
  function GetCurrentBudget(s: Store, user: UserId, accountId: AccountId, today: Date): (r: Result<BudgetSummary>)
    ensures r.Err? <==> accountId == ""
    ensures r.Err? ==> r.message == MsgAccountIdRequired
    ensures r.Ok? && BudgetsKeyedByOwner(s.budgets) ==>
              (r.value.budget.Some? <==> exists u :: u in s.budgets && s.budgets[u].userId == user) &&
              (r.value.budget.Some? ==> r.value.budget.value in s.budgets.Values && r.value.budget.value.userId == user)
    ensures r.Ok? && IsValid(today) && DatesValid(s.transactions) ==>
              r.value.currentExpenses == MonthExpenseTotal(s.transactions, user, accountId, today)
  {
    var budget := if user in s.budgets then Some(s.budgets[user]) else None;
    if accountId == "" then Err(MsgAccountIdRequired)
    else
      WindowTotalIsMonthTotal(s.transactions, user, accountId, today);
      Ok(BudgetSummary(budget, ExpenseTotal(s.transactions, user, accountId, MonthStart(today), MonthEnd(today))))
  }

  // ---------------------------------------------------------------------------
  // updateBudget
  // ---------------------------------------------------------------------------

  /** The argument of `updateBudget`: a number, or a value of some other type. */
  datatype AmountArgument = NumberArgument(value: real) | NonNumberArgument

  /** `updateBudget(amount)` by `user`: upsert on the budget's owner, with
      `newId` the id a newly created row gets. The amount must be a number
      and not negative (zero is accepted, whatever the message says). */
  function UpdateBudget(s: Store, user: UserId, amount: AmountArgument, newId: string): (o: Outcome<Budget>)
    requires BudgetIdUnused(s.budgets, newId)
    ensures o.result.Err? <==> amount.NonNumberArgument? || amount.value < 0.0
    ensures o.result.Err? ==> o == Outcome(s, Err(MsgInvalidAmount))
    ensures o.result.Ok? ==>
              var b := o.result.value;
              b.amount == amount.value && o.store == s.(budgets := s.budgets[user := b]) &&
              (user in s.budgets ==> b == s.budgets[user].(amount := amount.value)) &&
              (user !in s.budgets ==> b == Budget(newId, user, amount.value, None))
    ensures o.result.Ok? && BudgetsKeyedByOwner(s.budgets) ==> o.result.value.userId == user
  {
    if amount.NonNumberArgument? || amount.value < 0.0 then Outcome(s, Err(MsgInvalidAmount))
    else
      var b := if user in s.budgets then s.budgets[user].(amount := amount.value)
               else Budget(newId, user, amount.value, None);
      Outcome(s.(budgets := s.budgets[user := b]), Ok(b))
  }

  /** Setting the budget keeps the budget table keyed by owner. */
  lemma UpdateBudgetPreservesWellFormed(s: Store, user: UserId, amount: AmountArgument, newId: string)
    requires BudgetIdUnused(s.budgets, newId)
    requires WellFormed(s)
    ensures WellFormed(UpdateBudget(s, user, amount, newId).store)
  {
  }

  /** Once set, the budget card reads back the amount just stored. */
  lemma UpdateThenReadBudget(s: Store, user: UserId, value: real, newId: string, accountId: AccountId, today: Date)
    requires BudgetIdUnused(s.budgets, newId)
    requires value >= 0.0 && accountId != ""
    ensures var o := UpdateBudget(s, user, NumberArgument(value), newId);
            var r := GetCurrentBudget(o.store, user, accountId, today);
            r.Ok? && r.value.budget == Some(o.result.value) && r.value.budget.value.amount == value
  {
  }

  /** Setting the same amount twice changes nothing the second time. */
  lemma UpdateBudgetIdempotent(s: Store, user: UserId, amount: AmountArgument, newId: string, otherId: string)
    requires BudgetIdUnused(s.budgets, newId)
    requires BudgetIdUnused(UpdateBudget(s, user, amount, newId).store.budgets, otherId)
    ensures var o := UpdateBudget(s, user, amount, newId);
            var o2 := UpdateBudget(o.store, user, amount, otherId);
            o2.store == o.store && o2.result == o.result
  {
  }

  // ---------------------------------------------------------------------------
  // Recording an expense moves the budget card
  // ---------------------------------------------------------------------------

  /** Creating an expense dated in today's month on the account the card
      shows raises the month's expenses by exactly its amount. */
  lemma ExpenseCountsTowardsCurrentBudget(s: Store, user: UserId, data: TransactionActions.TransactionInput,
                                          newId: string, now: int, errors: TransactionActions.ForeignErrors,
                                          today: Date)
    requires TransactionIdUnused(s.transactions, newId)
    requires IsValid(today) && data.kind == Expense && SameMonth(data.date, today) && data.accountId != ""
    requires TransactionActions.CreateTransaction(s, user, TransactionActions.Allowed, data, newId, now, errors).result.Ok?
    ensures var o := TransactionActions.CreateTransaction(s, user, TransactionActions.Allowed, data, newId, now, errors);
            GetCurrentBudget(o.store, user, data.accountId, today).value.currentExpenses
            == GetCurrentBudget(s, user, data.accountId, today).value.currentExpenses + data.amount
  {
    var o := TransactionActions.CreateTransaction(s, user, TransactionActions.Allowed, data, newId, now, errors);
    var t := o.result.value;
    var ts := o.store.transactions;
    assert ts == s.transactions + [t];
    assert ts[..|ts| - 1] == s.transactions;
    InMonthWindow(today, t.date);
    assert CountsAsExpense(t, user, data.accountId, MonthStart(today), MonthEnd(today));
  }
}

=== FILE: budget_alerts.dfy ===
/**
  The scheduled budget check: for every budget whose owner has a default
  account, add up that account's expenses in the current month and record an
  alert when they reach 80% of the budget, at most once per calendar month.
 */
module BudgetAlerts {
  import opened Results
  import opened Calendar
  import opened Ledger
  import BudgetActions

  /** `isNewMonth(lastAlertDate, currentDate)` */
  function IsNewMonth(lastAlertDate: Date, currentDate: Date): (r: bool)
    ensures r <==> !SameMonth(lastAlertDate, currentDate)
  {
    lastAlertDate.month != currentDate.month || lastAlertDate.year != currentDate.year
  }

  /** A new month is any other calendar month, earlier or later. */
  lemma IsNewMonthIsOtherMonth(a: Date, b: Date)
    ensures IsNewMonth(a, b) <==> !SameMonth(a, b)
    ensures IsNewMonth(a, b) <==> IsNewMonth(b, a)
    ensures !IsNewMonth(a, a)
  {
  }

  /** `(totalExpenses / budgetAmount) * 100 >= 80` in floating point: with a
      zero budget any positive total divides to Infinity and passes, while a
      zero total divides to NaN and fails. */
  function ThresholdReached(total: real, budgetAmount: real): (r: bool)
    ensures budgetAmount > 0.0 ==> (r <==> 5.0 * total >= 4.0 * budgetAmount)
    ensures budgetAmount < 0.0 ==> (r <==> 5.0 * total <= 4.0 * budgetAmount)
    ensures budgetAmount == 0.0 ==> (r <==> total > 0.0)
  {
    if budgetAmount == 0.0 then total > 0.0
    else
      ThresholdScales(total, budgetAmount);
      total / budgetAmount * 100.0 >= 80.0
  }

  lemma ThresholdScales(total: real, budgetAmount: real)
    requires budgetAmount != 0.0
    ensures budgetAmount > 0.0 ==> (total / budgetAmount * 100.0 >= 80.0 <==> 5.0 * total >= 4.0 * budgetAmount)
    ensures budgetAmount < 0.0 ==> (total / budgetAmount * 100.0 >= 80.0 <==> 5.0 * total <= 4.0 * budgetAmount)
  {
    var q := total / budgetAmount;
    assert q * budgetAmount == total;
    if budgetAmount > 0.0 {
      assert q >= 0.8 <==> q * budgetAmount >= 0.8 * budgetAmount;
    } else {
      assert q >= 0.8 <==> q * budgetAmount <= 0.8 * budgetAmount;
    }
  }

  /** Whether budget `b`, with `total` spent, is due an alert at `now`: over
      the threshold, and not already alerted in this calendar month. */
  predicate AlertDue(b: Budget, total: real, now: Date) {
    ThresholdReached(total, b.amount) && (b.lastAlertSent.None? || IsNewMonth(b.lastAlertSent.value, now))
  }

  /** One `check-budget-<id>` step, over the expense window [start, end]. */
  function CheckBudget(s: Store, b: Budget, start: Date, end: Date, now: Date): (r: Budget)
    ensures r == b || r == b.(lastAlertSent := Some(now))
    ensures DefaultAccount(s.accounts, b.userId).None? ==> r == b
    ensures b.lastAlertSent.Some? && SameMonth(b.lastAlertSent.value, now) ==> r == b
  {
    match DefaultAccount(s.accounts, b.userId)
    case None => b
    case Some(account) =>
      var total := ExpenseTotal(s.transactions, b.userId, account.id, start, end);
      if AlertDue(b, total, now) then b.(lastAlertSent := Some(now)) else b
  }

  /** The whole run: every budget is checked independently, and only the
      alert dates change. */
  function CheckBudgetAlerts(s: Store, start: Date, end: Date, now: Date): (r: Store)
    ensures r.accounts == s.accounts && r.transactions == s.transactions
    ensures r.budgets.Keys == s.budgets.Keys
    ensures forall u :: u in s.budgets ==>
              r.budgets[u] == s.budgets[u] || r.budgets[u] == s.budgets[u].(lastAlertSent := Some(now))
    ensures forall u :: u in s.budgets && DefaultAccount(s.accounts, s.budgets[u].userId).None? ==>
              r.budgets[u] == s.budgets[u]
    ensures forall u :: u in s.budgets && s.budgets[u].lastAlertSent.Some? &&
                        SameMonth(s.budgets[u].lastAlertSent.value, now) ==>
              r.budgets[u] == s.budgets[u]
  {
    s.(budgets := map u | u in s.budgets :: CheckBudget(s, s.budgets[u], start, end, now))
  }

  /** Only the budget's own owner, default account and transactions matter to
      whether it is alerted: a budget over the threshold that was not alerted
      this month is alerted now. */
  lemma CheckBudgetAlertsFires(s: Store, start: Date, end: Date, now: Date, u: UserId)
    requires u in s.budgets
    requires DefaultAccount(s.accounts, s.budgets[u].userId).Some?
    ensures var b := s.budgets[u];
            var total := ExpenseTotal(s.transactions, b.userId, DefaultAccount(s.accounts, b.userId).value.id, start, end);
            CheckBudgetAlerts(s, start, end, now).budgets[u].lastAlertSent == Some(now) <==>
              (ThresholdReached(total, b.amount) && (b.lastAlertSent.None? || IsNewMonth(b.lastAlertSent.value, now))) ||
              b.lastAlertSent == Some(now)
  {
    assert CheckBudgetAlerts(s, start, end, now).budgets[u] == CheckBudget(s, s.budgets[u], start, end, now);
  }

  /** A second run later in the same month sends nothing new. */
  lemma NoSecondAlertInAMonth(s: Store, start: Date, end: Date, now: Date, later: Date)
    requires SameMonth(now, later)
    ensures var once := CheckBudgetAlerts(s, start, end, now);
            CheckBudgetAlerts(once, start, end, later).budgets.Keys == once.budgets.Keys &&
            forall u :: u in once.budgets ==>
              CheckBudgetAlerts(once, start, end, later).budgets[u] == once.budgets[u]
  {
    var once := CheckBudgetAlerts(s, start, end, now);
    var twice := CheckBudgetAlerts(once, start, end, later);
    forall u | u in once.budgets ensures twice.budgets[u] == once.budgets[u] {
      var b := s.budgets[u];
      if once.budgets[u] != b {
        assert once.budgets[u].lastAlertSent == Some(now);
      } else {
        if DefaultAccount(s.accounts, b.userId).Some? {
          var total := ExpenseTotal(s.transactions, b.userId, DefaultAccount(s.accounts, b.userId).value.id, start, end);
          assert !AlertDue(b, total, now);
          assert b.lastAlertSent.Some? ==> (IsNewMonth(b.lastAlertSent.value, now) <==> IsNewMonth(b.lastAlertSent.value, later));
        }
      }
    }
  }

  // ---------------------------------------------------------------------------
  // The run over the current month
  // ---------------------------------------------------------------------------

  /** The run with the expense window of `now`'s month, the same window the
      budget card uses. */
  function CheckBudgetAlertsThisMonth(s: Store, now: Date): (r: Store)
    ensures r.accounts == s.accounts && r.transactions == s.transactions
    ensures r.budgets.Keys == s.budgets.Keys
    ensures forall u :: u in s.budgets ==>
              r.budgets[u] == s.budgets[u] || r.budgets[u] == s.budgets[u].(lastAlertSent := Some(now))
    ensures forall u :: u in s.budgets && DefaultAccount(s.accounts, s.budgets[u].userId).None? ==>
              r.budgets[u] == s.budgets[u]
  {
    CheckBudgetAlerts(s, BudgetActions.MonthStart(now), BudgetActions.MonthEnd(now), now)
  }

  /** The alert agrees with the budget card: it fires exactly when the month's
      expenses the card shows for the default account reach 80% of the
      budget, and no alert was sent earlier this month. */
  lemma AlertMatchesBudgetCard(s: Store, now: Date, u: UserId)
    requires u in s.budgets && s.budgets[u].userId == u
    requires DefaultAccount(s.accounts, u).Some? && DefaultAccount(s.accounts, u).value.id != ""
    requires s.budgets[u].lastAlertSent != Some(now)
    ensures var card := BudgetActions.GetCurrentBudget(s, u, DefaultAccount(s.accounts, u).value.id, now);
            card.Ok? &&
            (CheckBudgetAlertsThisMonth(s, now).budgets[u].lastAlertSent == Some(now) <==>
              ThresholdReached(card.value.currentExpenses, s.budgets[u].amount) &&
              (s.budgets[u].lastAlertSent.None? || IsNewMonth(s.budgets[u].lastAlertSent.value, now)))
  {
    CheckBudgetAlertsFires(s, BudgetActions.MonthStart(now), BudgetActions.MonthEnd(now), now, u);
  }

  /** A budget of 1000 with 850 spent on the default account this month, never
      alerted before, is alerted. */
  lemma AlertScenario()
    ensures var acct := Account("acc", "u", "Main", Current, 0.0, true, 0);
            var t := Transaction("t1", "u", "acc", Expense, 850.0, "rent", Date(2024, 5, 3), "housing",
                                 false, "", NoNextDate, 1);
            var s := Store([acct], [t], map["u" := Budget("b1", "u", 1000.0, None)]);
            CheckBudgetAlertsThisMonth(s, Date(2024, 5, 20)).budgets["u"].lastAlertSent == Some(Date(2024, 5, 20))
  {
  }

  // ---------------------------------------------------------------------------
  // The job as written
  // ---------------------------------------------------------------------------

  /** What the runtime reports when a step evaluates the undeclared names
      `startOfMonth` and `endOfMonth`. */
  const MsgStartOfMonthUndefined := "startOfMonth is not defined"

  /** The job as the module is written: the expense window names two bindings
      that the module never declares or imports, so the first step that gets
      past the default-account check fails before it can record anything. */
  function CheckBudgetAlertsAsWritten(s: Store, now: Date): (o: Outcome<()>)
    ensures o.store == s
    ensures o.result.Err? <==> exists u :: u in s.budgets && DefaultAccount(s.accounts, s.budgets[u].userId).Some?
  {
    if exists u :: u in s.budgets && DefaultAccount(s.accounts, s.budgets[u].userId).Some?
    then Outcome(s, Err(MsgStartOfMonthUndefined))
    else Outcome(s, Ok(()))
  }

  /** Whenever the intended job records an alert, the job as written fails
      and records none. */
  lemma AsWrittenMissesEveryAlert(s: Store, now: Date)
    requires CheckBudgetAlertsThisMonth(s, now) != s
    ensures CheckBudgetAlertsAsWritten(s, now) == Outcome(s, Err(MsgStartOfMonthUndefined))
  {
    var r := CheckBudgetAlertsThisMonth(s, now);
    if forall u :: u in s.budgets ==> DefaultAccount(s.accounts, s.budgets[u].userId).None? {
      assert false;
    }
  }

  /** The scenario above: the intended job alerts, the job as written fails
      and the budget keeps no alert date. */
  lemma AsWrittenScenario()
    ensures var acct := Account("acc", "u", "Main", Current, 0.0, true, 0);
            var t := Transaction("t1", "u", "acc", Expense, 850.0, "rent", Date(2024, 5, 3), "housing",
                                 false, "", NoNextDate, 1);
            var s := Store([acct], [t], map["u" := Budget("b1", "u", 1000.0, None)]);
            var o := CheckBudgetAlertsAsWritten(s, Date(2024, 5, 20));
            o.result == Err(MsgStartOfMonthUndefined) && o.store.budgets["u"].lastAlertSent == None
  {
    var acct := Account("acc", "u", "Main", Current, 0.0, true, 0);
    var t := Transaction("t1", "u", "acc", Expense, 850.0, "rent", Date(2024, 5, 3), "housing",
                         false, "", NoNextDate, 1);
    var s := Store([acct], [t], map["u" := Budget("b1", "u", 1000.0, None)]);
    assert DefaultAccount(s.accounts, s.budgets["u"].userId) == Some(acct);
  }
}

=== FILE: calendar.dfy ===
/**
  Proleptic Gregorian calendar dates at day granularity, and the overflow
  normalisation a JavaScript `Date` performs when it is built from (or set to)
  a year, month and day that are out of range: `new Date(2023, 0, 32)` is
  1 February 2023 and `new Date(2023, 12, 0)` is 31 December 2023.

  Months are numbered 1..12 here (JavaScript numbers them 0..11).
 */
module Calendar {

  datatype Date = Date(year: int, month: int, day: int)

  predicate IsLeapYear(y: int) {
    y % 4 == 0 && (y % 100 != 0 || y % 400 == 0)
  }

  function DaysInMonth(y: int, m: int): (n: int)
    requires 1 <= m <= 12
    ensures 28 <= n <= 31
    ensures n == 29 <==> m == 2 && IsLeapYear(y)
    ensures n == 28 <==> m == 2 && !IsLeapYear(y)
  {
    if m == 2 then (if IsLeapYear(y) then 29 else 28)
    else if m == 4 || m == 6 || m == 9 || m == 11 then 30
    else 31
  }

  /** A date that names a real calendar day. */
  predicate IsValid(d: Date) {
    1 <= d.month <= 12 && 1 <= d.day <= DaysInMonth(d.year, d.month)
  }

  /** Chronological order: `a` is strictly earlier than `b`. */
  predicate Before(a: Date, b: Date) {
    a.year < b.year ||
    (a.year == b.year && (a.month < b.month || (a.month == b.month && a.day < b.day)))
  }

  predicate OnOrBefore(a: Date, b: Date) {
    !Before(b, a)
  }

  predicate SameMonth(a: Date, b: Date) {
    a.year == b.year && a.month == b.month
  }

  /** The first day of the month after month `m` of year `y`. */
  function FirstOfNextMonth(y: int, m: int): (r: Date)
    requires 1 <= m <= 12
    ensures IsValid(r) && r.day == 1
    ensures m < 12 ==> r.year == y && r.month == m + 1
    ensures m == 12 ==> r.year == y + 1 && r.month == 1
  {
    if m == 12 then Date(y + 1, 1, 1) else Date(y, m + 1, 1)
  }

  /** The first day of the month before month `m` of year `y`. */
  function FirstOfPreviousMonth(y: int, m: int): (r: Date)
    requires 1 <= m <= 12
    ensures IsValid(r) && r.day == 1
    ensures FirstOfNextMonth(r.year, r.month) == Date(y, m, 1)
  {
    if m == 1 then Date(y - 1, 12, 1) else Date(y, m - 1, 1)
  }

  /** The calendar day after `d`. */
  function NextDay(d: Date): (r: Date)
    requires IsValid(d)
    ensures IsValid(r)
    ensures Before(d, r)
  {
    if d.day < DaysInMonth(d.year, d.month) then Date(d.year, d.month, d.day + 1)
    else FirstOfNextMonth(d.year, d.month)
  }

  /** The calendar day before `d`. */
  function PreviousDay(d: Date): (r: Date)
    requires IsValid(d)
    ensures IsValid(r)
    ensures Before(r, d)
  {
    if d.day > 1 then Date(d.year, d.month, d.day - 1)
    else
      var p := FirstOfPreviousMonth(d.year, d.month);
      Date(p.year, p.month, DaysInMonth(p.year, p.month))
  }

  /** No real date lies strictly between a date and the next day. */
  lemma NextDayIsNext(d: Date, e: Date)
    requires IsValid(d) && IsValid(e) && Before(d, e)
    ensures OnOrBefore(NextDay(d), e)
  {
  }

  /** No real date lies strictly between the previous day and a date. */
  lemma PreviousDayIsPrevious(d: Date, e: Date)
    requires IsValid(d) && IsValid(e) && Before(e, d)
    ensures OnOrBefore(e, PreviousDay(d))
  {
  }

  lemma PreviousDayUndoesNextDay(d: Date)
    requires IsValid(d)
    ensures PreviousDay(NextDay(d)) == d
    ensures NextDay(PreviousDay(d)) == d
  {
  }

  /** `n` calendar days after `d`, counted one day at a time: the reference
      meaning of "add n days". */
  function DaysLater(d: Date, n: nat): (r: Date)
    requires IsValid(d)
    ensures IsValid(r)
    ensures n > 0 ==> Before(d, r)
  {
    if n == 0 then d else NextDay(DaysLater(d, n - 1))
  }

  /** Day overflow and underflow: day `d` of month `m` of year `y`, where `d`
      may lie outside the month, counts forward from the month's first day
      (or backward into earlier months when `d < 1`). */
  function RollDays(y: int, m: int, d: int): (r: Date)
    requires 1 <= m <= 12
    ensures IsValid(r)
    decreases if d < 1 then 1 - d else 0, if d < 1 then 0 else d
  {
    if d < 1 then
      var p := FirstOfPreviousMonth(y, m);
      RollDays(p.year, p.month, d + DaysInMonth(p.year, p.month))
    else if d > DaysInMonth(y, m) then
      var n := FirstOfNextMonth(y, m);
      RollDays(n.year, n.month, d - DaysInMonth(y, m))
    else
      Date(y, m, d)
  }

  /** `new Date(y, m - 1, d)`: month overflow carries into the year, then day
      overflow carries into the month. */
  function Normalize(y: int, m: int, d: int): (r: Date)
    ensures IsValid(r)
    ensures 1 <= m <= 12 ==> r == RollDays(y, m, d)
    ensures 1 <= m <= 12 && 1 <= d <= DaysInMonth(y, m) ==> r == Date(y, m, d)
  {
    MonthInRange(m);
    RollDays(y + (m - 1) / 12, (m - 1) % 12 + 1, d)
  }

  /** A month already in 1..12 carries nothing into the year. */
  lemma MonthInRange(m: int)
    ensures 1 <= m <= 12 ==> (m - 1) / 12 == 0 && (m - 1) % 12 + 1 == m
  {
  }

  /** `date.setDate(date.getDate() + n)` */
  function AddDays(d: Date, n: int): Date {
    Normalize(d.year, d.month, d.day + n)
  }

  /** `date.setMonth(date.getMonth() + n)`: the day of the month is kept and
      then normalised, so 31 January plus one month is early March. */
  function AddMonths(d: Date, n: int): Date {
    Normalize(d.year, d.month + n, d.day)
  }

  /** `date.setFullYear(date.getFullYear() + n)` */
  function AddYears(d: Date, n: int): Date {
    Normalize(d.year + n, d.month, d.day)
  }

  // ---------------------------------------------------------------------------
  // Day overflow agrees with counting days one at a time.
  // ---------------------------------------------------------------------------

  /** Moving a day number into the previous month, counted in that month's days,
      names the same date. */
  lemma RollDaysFromPreviousMonth(y: int, m: int, i: int)
    requires 1 <= m <= 12
    ensures var p := FirstOfPreviousMonth(y, m);
            RollDays(p.year, p.month, i + DaysInMonth(p.year, p.month)) == RollDays(y, m, i)
  {
  }

  /** One more day of overflow is exactly the next calendar day. */
  lemma {:induction false} RollDaysSuccessor(y: int, m: int, j: int)
    requires 1 <= m <= 12
    ensures RollDays(y, m, j + 1) == NextDay(RollDays(y, m, j))
    decreases if j < 1 then 1 - j else 0, if j < 1 then 0 else j
  {
    if j < 1 {
      var p := FirstOfPreviousMonth(y, m);
      var dp := DaysInMonth(p.year, p.month);
      if j + 1 < 1 {
        RollDaysSuccessor(p.year, p.month, j + dp);
      } else {
        assert RollDays(y, m, j + 1) == Date(y, m, 1);
        assert RollDays(y, m, j) == Date(p.year, p.month, dp);
      }
    } else if j > DaysInMonth(y, m) {
      var n := FirstOfNextMonth(y, m);
      RollDaysSuccessor(n.year, n.month, j - DaysInMonth(y, m));
    } else if j == DaysInMonth(y, m) {
      var n := FirstOfNextMonth(y, m);
      assert RollDays(y, m, j + 1) == RollDays(n.year, n.month, 1);
    }
  }

  /** Counting `a + b` days is counting `a` days and then `b` more. */
  lemma {:induction false} DaysLaterAdd(d: Date, a: nat, b: nat)
    requires IsValid(d)
    ensures DaysLater(d, a + b) == DaysLater(DaysLater(d, a), b)
    decreases b
  {
    if b > 0 {
      DaysLaterAdd(d, a, b - 1);
    }
  }

  /** Day `d >= 1` of a month is `d - 1` days after its first day, however far
      `d` overflows the month. */
  lemma {:induction false} RollDaysCountsFromFirst(y: int, m: int, d: int)
    requires 1 <= m <= 12 && d >= 1
    ensures RollDays(y, m, d) == DaysLater(Date(y, m, 1), d - 1)
    decreases d
  {
    if d > 1 {
      RollDaysCountsFromFirst(y, m, d - 1);
      RollDaysSuccessor(y, m, d - 1);
    }
  }

  /** `setDate(getDate() + n)` for `n >= 0` is exactly `n` calendar days later. */
  lemma AddDaysIsDaysLater(d: Date, n: nat)
    requires IsValid(d)
    ensures AddDays(d, n) == DaysLater(d, n)
  {
    RollDaysCountsFromFirst(d.year, d.month, d.day + n);
    RollDaysCountsFromFirst(d.year, d.month, d.day);
    DaysLaterAdd(Date(d.year, d.month, 1), d.day - 1, n);
  }

  /** Overflowing from an already normalised date continues from where the
      first normalisation stopped. */
  lemma {:induction false} RollDaysShift(y: int, m: int, j: int, k: int)
    requires 1 <= m <= 12
    ensures var r := RollDays(y, m, j);
            RollDays(r.year, r.month, r.day + k) == RollDays(y, m, j + k)
    decreases if j < 1 then 1 - j else 0, if j < 1 then 0 else j, 1
  {
    if j < 1 {
      RollDaysShiftUnderflow(y, m, j, k);
    } else if j > DaysInMonth(y, m) {
      RollDaysShiftOverflow(y, m, j, k);
    }
  }

  lemma {:induction false} RollDaysShiftUnderflow(y: int, m: int, j: int, k: int)
    requires 1 <= m <= 12 && j < 1
    ensures var r := RollDays(y, m, j);
            RollDays(r.year, r.month, r.day + k) == RollDays(y, m, j + k)
    decreases 1 - j, 0, 0
  {
    var p := FirstOfPreviousMonth(y, m);
    var dp := DaysInMonth(p.year, p.month);
    RollDaysShift(p.year, p.month, j + dp, k);
    RollDaysFromPreviousMonth(y, m, j + k);
  }

  lemma {:induction false} RollDaysShiftOverflow(y: int, m: int, j: int, k: int)
    requires 1 <= m <= 12 && j > DaysInMonth(y, m)
    ensures var r := RollDays(y, m, j);
            RollDays(r.year, r.month, r.day + k) == RollDays(y, m, j + k)
    decreases 0, j, 0
  {
    var n := FirstOfNextMonth(y, m);
    var dm := DaysInMonth(y, m);
    RollDaysShift(n.year, n.month, j - dm, k);
    RollDaysFromPreviousMonth(n.year, n.month, j - dm + k);
  }

  /** Adding `n` days and then `-n` days returns to the starting date, for
      every `n`. */
  lemma AddDaysRoundTrip(d: Date, n: int)
    requires IsValid(d)
    ensures AddDays(AddDays(d, n), -n) == d
  {
    RollDaysShift(d.year, d.month, d.day + n, -n);
  }

  // ---------------------------------------------------------------------------
  // Month and year steps.
  // ---------------------------------------------------------------------------

  /** Stepping the month forward by one carries December into January of the
      next year. */
  lemma MonthStepForward(y: int, m: int, d: int)
    requires 1 <= m <= 12
    ensures var n := FirstOfNextMonth(y, m);
            Normalize(y, m + 1, d) == RollDays(n.year, n.month, d)
  {
    assert m < 12 ==> m / 12 == 0 && m % 12 + 1 == m + 1;
  }

  /** Stepping the month back by one carries January into December of the
      previous year. */
  lemma MonthStepBack(y: int, m: int, d: int)
    requires 1 <= m <= 12
    ensures var p := FirstOfPreviousMonth(y, m);
            Normalize(y, m - 1, d) == RollDays(p.year, p.month, d)
  {
    assert m > 1 ==> (m - 2) / 12 == 0 && (m - 2) % 12 + 1 == m - 1;
  }

  /** One month later keeps the day of the month when the next month has it;
      otherwise the surplus days spill into the month after that. The result
      is always strictly later. */
  lemma AddOneMonth(d: Date)
    requires IsValid(d)
    ensures var n := FirstOfNextMonth(d.year, d.month);
            var dn := DaysInMonth(n.year, n.month);
            var nn := FirstOfNextMonth(n.year, n.month);
            AddMonths(d, 1) ==
              if d.day <= dn then Date(n.year, n.month, d.day)
              else Date(nn.year, nn.month, d.day - dn)
    ensures Before(d, AddMonths(d, 1))
  {
    MonthStepForward(d.year, d.month, d.day);
    var n := FirstOfNextMonth(d.year, d.month);
    var dn := DaysInMonth(n.year, n.month);
    if d.day > dn {
      var nn := FirstOfNextMonth(n.year, n.month);
      assert RollDays(n.year, n.month, d.day) == RollDays(nn.year, nn.month, d.day - dn);
    }
  }

  /** One month forward then one month back restores the date whenever the
      day of the month exists in the next month. */
  lemma AddOneMonthRoundTrip(d: Date)
    requires IsValid(d)
    requires d.day <= DaysInMonth(FirstOfNextMonth(d.year, d.month).year, FirstOfNextMonth(d.year, d.month).month)
    ensures AddMonths(AddMonths(d, 1), -1) == d
  {
    AddOneMonth(d);
    var n := FirstOfNextMonth(d.year, d.month);
    MonthStepBack(n.year, n.month, d.day);
  }

  /** The end-of-month edge: 31 January 2023 plus one month is 3 March. */
  lemma AddOneMonthEndOfJanuary()
    ensures AddMonths(Date(2023, 1, 31), 1) == Date(2023, 3, 3)
  {
    AddOneMonth(Date(2023, 1, 31));
  }

  /** In a leap year 31 January plus one month is 2 March. */
  lemma AddOneMonthEndOfJanuaryLeapYear()
    ensures AddMonths(Date(2024, 1, 31), 1) == Date(2024, 3, 2)
  {
    AddOneMonth(Date(2024, 1, 31));
  }

  /** One month back from 3 March is 3 February, not 31 January: the month
      step does not undo itself at the end of a month. */
  lemma AddOneMonthEndOfJanuaryNotUndone()
    ensures AddMonths(AddMonths(Date(2023, 1, 31), 1), -1) == Date(2023, 2, 3)
  {
    AddOneMonthEndOfJanuary();
    MonthStepBack(2023, 3, 3);
  }

  lemma LeapYearsAreApart(y: int)
    ensures IsLeapYear(y) ==> !IsLeapYear(y + 1) && !IsLeapYear(y - 1)
  {
  }

  /** One year later is the same month and day, except that 29 February
      becomes 1 March. The result is always strictly later. */
  lemma AddOneYear(d: Date)
    requires IsValid(d)
    ensures AddYears(d, 1) ==
              if d.month == 2 && d.day == 29 then Date(d.year + 1, 3, 1)
              else Date(d.year + 1, d.month, d.day)
    ensures Before(d, AddYears(d, 1))
  {
    LeapYearsAreApart(d.year);
    if d.month == 2 && d.day == 29 {
      assert RollDays(d.year + 1, 2, 29) == RollDays(d.year + 1, 3, 1);
    }
  }

  /** One year forward then one year back restores every date but 29 February. */
  lemma AddOneYearRoundTrip(d: Date)
    requires IsValid(d)
    ensures !(d.month == 2 && d.day == 29) ==> AddYears(AddYears(d, 1), -1) == d
    ensures d.month == 2 && d.day == 29 ==> AddYears(AddYears(d, 1), -1) == Date(d.year, 3, 1)
  {
    AddOneYear(d);
  }
}

=== FILE: dashboard_actions.dfy ===
/**
  The dashboard's server actions: opening an account and listing the user's
  accounts newest first.
 */
module DashboardActions {
  import opened Results
  import opened Ledger
  import opened Ordering
  import Decimal

  /** The submitted account form. `balance` is still text; the action parses it. */
  datatype AccountInput = AccountInput(name: string, kind: AccountType, balance: string, isDefault: bool)

  const MsgInvalidBalance := "Invalid balance"

  /** `createAccount(userData)` by `user`, with the id and creation time the
      store assigns to the new row. The first account of a user is always
      the default; a new default takes the flag from every other account. */
  function CreateAccount(s: Store, user: UserId, data: AccountInput, newId: AccountId, now: int): (o: Outcome<Account>)
    requires AccountIdUnused(s.accounts, newId)
    ensures o.result.Err? <==> Decimal.ParseFloat(data.balance).None?
    ensures o.result.Err? ==> o == Outcome(s, Err(MsgInvalidBalance))
    ensures o.result.Ok? ==>
              var a := o.result.value;
              a.id == newId && a.userId == user && a.name == data.name && a.kind == data.kind &&
              Some(a.balance) == Decimal.ParseFloat(data.balance) && a.createdAt == now &&
              (a.isDefault <==> !HasAccounts(s.accounts, user) || data.isDefault)
    ensures o.result.Ok? ==>
              o.store.transactions == s.transactions && o.store.budgets == s.budgets &&
              |o.store.accounts| == |s.accounts| + 1 &&
              o.store.accounts[|s.accounts|] == o.result.value
    // Existing rows lose at most their default flag, and only the user's rows
    // and only when the new one is the default.
    ensures o.result.Ok? ==>
              forall i :: 0 <= i < |s.accounts| ==>
                o.store.accounts[i] ==
                  if o.result.value.isDefault && s.accounts[i].userId == user
                  then s.accounts[i].(isDefault := false) else s.accounts[i]
  {
    match Decimal.ParseFloat(data.balance)
    case None => Outcome(s, Err(MsgInvalidBalance))
    case Some(balance) =>
      var shouldBeDefault := if !HasAccounts(s.accounts, user) then true else data.isDefault;
      var before := if shouldBeDefault then ClearDefaults(s.accounts, user) else s.accounts;
      var account := Account(newId, user, data.name, data.kind, balance, shouldBeDefault, now);
      Outcome(Store(before + [account], s.transactions, s.budgets), Ok(account))
  }

  /** Opening accounts keeps the store well formed: ids stay unique, and each
      user keeps exactly one default. */
  lemma CreateAccountPreservesWellFormed(s: Store, user: UserId, data: AccountInput, newId: AccountId, now: int)
    requires AccountIdUnused(s.accounts, newId)
    requires WellFormed(s)
    ensures WellFormed(CreateAccount(s, user, data, newId, now).store)
  {
    var o := CreateAccount(s, user, data, newId, now);
    if o.result.Ok? {
      var acct := o.result.value;
      assert acct.isDefault || HasAccounts(s.accounts, user);
      AddedAccountKeepsIdsUnique(s.accounts, o.store.accounts, acct);
      AddedAccountKeepsOneDefault(s.accounts, o.store.accounts, acct);
      AddedAccountKeepsADefault(s.accounts, o.store.accounts, acct);
    }
  }

  /** The shape of the account table after `createAccount` adds `acct`. */
  predicate AddsAccount(a: seq<Account>, b: seq<Account>, acct: Account) {
    |b| == |a| + 1 && b[|a|] == acct &&
    forall i :: 0 <= i < |a| ==>
      b[i] == if acct.isDefault && a[i].userId == acct.userId then a[i].(isDefault := false) else a[i]
  }

  lemma AddedAccountKeepsIdsUnique(a: seq<Account>, b: seq<Account>, acct: Account)
    requires AddsAccount(a, b, acct) && AccountIdUnused(a, acct.id) && UniqueAccountIds(a)
    ensures UniqueAccountIds(b)
  {
    assert forall i :: 0 <= i < |a| ==> b[i].id == a[i].id;
  }

  lemma AddedAccountKeepsOneDefault(a: seq<Account>, b: seq<Account>, acct: Account)
    requires AddsAccount(a, b, acct) && AtMostOneDefault(a)
    requires acct.isDefault || HasAccounts(a, acct.userId)
    ensures AtMostOneDefault(b)
  {
    assert forall i :: 0 <= i < |a| ==> b[i].userId == a[i].userId && (b[i].isDefault ==> a[i].isDefault);
    assert forall i :: 0 <= i < |a| && b[i].userId == acct.userId && acct.isDefault ==> !b[i].isDefault;
  }

  lemma AddedAccountKeepsADefault(a: seq<Account>, b: seq<Account>, acct: Account)
    requires AddsAccount(a, b, acct) && DefaultWhenOwned(a)
    requires acct.isDefault || HasAccounts(a, acct.userId)
    ensures DefaultWhenOwned(b)
  {
    var n := |a|;
    forall i | 0 <= i < |b| ensures HasDefault(b, b[i].userId) {
      if b[i].userId == acct.userId && acct.isDefault {
        assert b[n].userId == b[i].userId && b[n].isDefault;
      } else {
        // The user of row i keeps the default they had before.
        var k: int;
        if i < n {
          k := i;
        } else {
          k :| 0 <= k < n && a[k].userId == acct.userId;
        }
        var j :| 0 <= j < n && a[j].userId == a[k].userId && a[j].isDefault;
        assert b[j] == a[j];
      }
    }
  }

  /** A user's first account is their default, whatever the form says. */
  lemma FirstAccountIsDefault(s: Store, user: UserId, data: AccountInput, newId: AccountId, now: int)
    requires AccountIdUnused(s.accounts, newId)
    requires !HasAccounts(s.accounts, user)
    ensures var o := CreateAccount(s, user, data, newId, now);
            o.result.Ok? ==>
              o.result.value.isDefault && DefaultAccount(o.store.accounts, user) == Some(o.result.value)
  {
    var o := CreateAccount(s, user, data, newId, now);
    if o.result.Err? {
      return;
    }
    var b := o.store.accounts;
    var acct := o.result.value;
    assert b[|b| - 1] == acct && acct.userId == user && acct.isDefault;
    forall i | 0 <= i < |s.accounts| ensures !(b[i].userId == user && b[i].isDefault) {
      assert s.accounts[i].userId != user;
    }
    var r := DefaultAccount(b, user);
    assert r.Some?;
    var k :| 0 <= k < |b| && b[k] == r.value;
    assert k == |b| - 1;
  }

  function AccountCreatedAt(a: Account): int {
    a.createdAt
  }

  /** `getUserAccounts()` by `user`: the user's accounts, newest first. */
  function GetUserAccounts(s: Store, user: UserId): (r: seq<Account>)
    ensures forall a :: multiset(r)[a] == if a.userId == user then multiset(s.accounts)[a] else 0
    ensures SortedDesc(r, AccountCreatedAt)
  {
    SortDesc(Filter(s.accounts, (a: Account) => a.userId == user), AccountCreatedAt)
  }

  /** The listing holds exactly the user's accounts. */
  lemma GetUserAccountsMembers(s: Store, user: UserId, a: Account)
    ensures a in GetUserAccounts(s, user) <==> a in s.accounts && a.userId == user
  {
    var listed := GetUserAccounts(s, user);
    assert a in listed <==> a in multiset(listed);
    assert a in s.accounts <==> a in multiset(s.accounts);
  }

  /** A newly opened account is listed, and listed first when it is the newest. */
  lemma CreatedAccountIsListed(s: Store, user: UserId, data: AccountInput, newId: AccountId, now: int)
    requires AccountIdUnused(s.accounts, newId)
    requires forall i :: 0 <= i < |s.accounts| ==> s.accounts[i].createdAt < now
    ensures var o := CreateAccount(s, user, data, newId, now);
            var listed := GetUserAccounts(o.store, user);
            o.result.Ok? ==> |listed| > 0 && listed[0] == o.result.value
  {
    var o := CreateAccount(s, user, data, newId, now);
    if o.result.Err? {
      return;
    }
    var b := o.store.accounts;
    var acct := o.result.value;
    assert b[|b| - 1] == acct;
    forall j | 0 <= j < |b| - 1 ensures b[j].createdAt < acct.createdAt {
      assert b[j].createdAt == s.accounts[j].createdAt;
    }
    NewestAccountIsListedFirst(o.store, user, acct);
  }

  /** The user's account that is newer than every other row heads the listing. */
  lemma NewestAccountIsListedFirst(s: Store, user: UserId, acct: Account)
    requires |s.accounts| > 0 && s.accounts[|s.accounts| - 1] == acct && acct.userId == user
    requires forall j :: 0 <= j < |s.accounts| - 1 ==> s.accounts[j].createdAt < acct.createdAt
    ensures var listed := GetUserAccounts(s, user);
            |listed| > 0 && listed[0] == acct
  {
    GetUserAccountsMembers(s, user, acct);
    ListedAccountsAreOlder(s, user, acct);
    NewestIsFirst(GetUserAccounts(s, user), acct);
  }

  lemma ListedAccountsAreOlder(s: Store, user: UserId, acct: Account)
    requires |s.accounts| > 0 && s.accounts[|s.accounts| - 1] == acct
    requires forall j :: 0 <= j < |s.accounts| - 1 ==> s.accounts[j].createdAt < acct.createdAt
    ensures forall x :: x in GetUserAccounts(s, user) ==> x == acct || x.createdAt < acct.createdAt
  {
    forall x | x in GetUserAccounts(s, user) ensures x == acct || x.createdAt < acct.createdAt {
      GetUserAccountsMembers(s, user, x);
      var j :| 0 <= j < |s.accounts| && s.accounts[j] == x;
    }
  }

  /** In a newest-first listing, a row newer than every other row comes first. */
  lemma NewestIsFirst(listed: seq<Account>, acct: Account)
    requires SortedDesc(listed, AccountCreatedAt)
    requires acct in listed
    requires forall x :: x in listed ==> x == acct || x.createdAt < acct.createdAt
    ensures |listed| > 0 && listed[0] == acct
  {
    var k :| 0 <= k < |listed| && listed[k] == acct;
    assert AccountCreatedAt(listed[0]) >= AccountCreatedAt(listed[k]);
  }
}

=== FILE: decimal.dfy ===
/**
  JavaScript `parseFloat` restricted to plain decimal numerals: leading white
  space is skipped, then an optional sign, digits, an optional point and more
  digits are read for as long as they form a numeral, and whatever follows is
  ignored. No numeral at all gives `NaN`, modelled as `None`.
 */
module Decimal {
  import opened Results
  import Text

  predicate IsDigit(c: char) {
    '0' <= c <= '9'
  }

  predicate AllDigits(s: string) {
    forall i :: 0 <= i < |s| ==> IsDigit(s[i])
  }

  predicate NoDigits(s: string) {
    forall i :: 0 <= i < |s| ==> !IsDigit(s[i])
  }

  function DigitValue(c: char): (v: nat)
    requires IsDigit(c)
    ensures v <= 9
  {
    (c as int) - ('0' as int)
  }

  function DigitChar(v: nat): (c: char)
    requires v <= 9
    ensures IsDigit(c) && DigitValue(c) == v
  {
    ((v + ('0' as int)) as char)
  }

  /** The number a string of decimal digits denotes, most significant first. */
  function DigitsValue(ds: string): nat
    requires AllDigits(ds)
  {
    if |ds| == 0 then 0 else DigitsValue(ds[..|ds| - 1]) * 10 + DigitValue(ds[|ds| - 1])
  }

  function Pow10(n: nat): (p: nat)
    ensures p >= 1
  {
    if n == 0 then 1 else 10 * Pow10(n - 1)
  }

  /** The longest prefix of `s` made of digits. */
  function LeadingDigits(s: string): (r: string)
    ensures |r| <= |s| && r == s[..|r|]
    ensures AllDigits(r)
    ensures |r| == |s| || !IsDigit(s[|r|])
  {
    if |s| > 0 && IsDigit(s[0]) then [s[0]] + LeadingDigits(s[1..]) else []
  }

  /** The pieces of the numeral at the start of a string: its sign, its
      integer digits and its fraction digits. */
  datatype Numeral = Numeral(negative: bool, whole: string, fraction: string)

  /** Reads the longest numeral prefix of `unsigned`, the text after the sign. */
  function ReadNumeral(negative: bool, unsigned: string): (r: Option<Numeral>)
    ensures r.Some? ==> AllDigits(r.value.whole) && AllDigits(r.value.fraction)
    ensures r.Some? ==> |r.value.whole| + |r.value.fraction| > 0
    ensures r.Some? ==> r.value.negative == negative
  {
    var whole := LeadingDigits(unsigned);
    var rest := unsigned[|whole|..];
    var fraction := if |rest| > 0 && rest[0] == '.' then LeadingDigits(rest[1..]) else [];
    if |whole| + |fraction| == 0 then None else Some(Numeral(negative, whole, fraction))
  }

  /** Reads the longest numeral prefix of `s` after its leading white space. */
  function ScanNumeral(s: string): (r: Option<Numeral>)
    ensures r.Some? ==> AllDigits(r.value.whole) && AllDigits(r.value.fraction)
    ensures r.Some? ==> |r.value.whole| + |r.value.fraction| > 0
    ensures var t := Text.TrimStart(s);
            r.Some? ==> (r.value.negative <==> |t| > 0 && t[0] == '-')
  {
    var t := Text.TrimStart(s);
    var signed := |t| > 0 && (t[0] == '-' || t[0] == '+');
    ReadNumeral(|t| > 0 && t[0] == '-', if signed then t[1..] else t)
  }

  /** The value of the digits `whole.fraction`. */
  function Magnitude(whole: string, fraction: string): (m: real)
    requires AllDigits(whole) && AllDigits(fraction)
    ensures m >= DigitsValue(whole) as real
    ensures |fraction| == 0 ==> m == DigitsValue(whole) as real
  {
    if |fraction| == 0 then DigitsValue(whole) as real
    else
      var f := DigitsValue(fraction) as real;
      var p := Pow10(|fraction|) as real;
      assert f / p >= 0.0 by { assert f >= 0.0 && p >= 1.0; }
      DigitsValue(whole) as real + f / p
  }

  function NumeralValue(n: Numeral): (v: real)
    requires AllDigits(n.whole) && AllDigits(n.fraction)
    ensures n.negative ==> v <= 0.0
    ensures !n.negative ==> v >= 0.0
  {
    var m := Magnitude(n.whole, n.fraction);
    if n.negative then -m else m
  }

  /** Whether a numeral starts `s` once its leading white space and one sign
      are skipped: a digit, or a point followed by a digit. */
  predicate StartsWithNumeral(s: string) {
    var t := Text.TrimStart(s);
    var u := if |t| > 0 && (t[0] == '-' || t[0] == '+') then t[1..] else t;
    (|u| > 0 && IsDigit(u[0])) || (|u| > 1 && u[0] == '.' && IsDigit(u[1]))
  }

  /** `parseFloat(s)`; `None` stands for `NaN`. */
  function ParseFloat(s: string): (r: Option<real>)
    ensures r.Some? <==> StartsWithNumeral(s)
    ensures NoDigits(s) ==> r.None?
    ensures var t := Text.TrimStart(s);
            r.Some? && r.value < 0.0 ==> |t| > 0 && t[0] == '-'
    ensures var t := Text.TrimStart(s);
            r.Some? && |t| > 0 && t[0] == '-' ==> r.value <= 0.0
  {
    match ScanNumeral(s)
    case None => None
    case Some(n) =>
      NumeralHasADigit(s, n);
      Some(NumeralValue(n))
  }

  /** A numeral's digits come from the string it was read from. */
  lemma NumeralHasADigit(s: string, n: Numeral)
    requires ScanNumeral(s) == Some(n)
    ensures !NoDigits(s)
  {
    var t := Text.TrimStart(s);
    var k := |s| - |t|;
    var unsigned := if |t| > 0 && (t[0] == '-' || t[0] == '+') then t[1..] else t;
    var o := |t| - |unsigned|;
    var whole := LeadingDigits(unsigned);
    if |whole| > 0 {
      assert s[k + o] == unsigned[0];
    } else {
      var rest := unsigned[|whole|..];
      assert s[k + o + 1] == rest[1];
    }
  }

  // ---------------------------------------------------------------------------
  // Rendering natural numbers, and reading them back.
  // ---------------------------------------------------------------------------

  /** The decimal digits of `n`, without leading zeros. */
  function NatToDecimal(n: nat): (s: string)
    ensures |s| > 0 && AllDigits(s)
  {
    if n < 10 then [DigitChar(n)] else NatToDecimal(n / 10) + [DigitChar(n % 10)]
  }

  lemma {:induction false} NatToDecimalValue(n: nat)
    ensures DigitsValue(NatToDecimal(n)) == n
    decreases n
  {
    if n >= 10 {
      NatToDecimalValue(n / 10);
      var s := NatToDecimal(n);
      assert s[..|s| - 1] == NatToDecimal(n / 10);
    }
  }

  lemma {:induction false} LeadingDigitsOfDigits(ds: string, rest: string)
    requires AllDigits(ds)
    requires |rest| == 0 || !IsDigit(rest[0])
    ensures LeadingDigits(ds + rest) == ds
    decreases |ds|
  {
    if |ds| > 0 {
      assert (ds + rest)[1..] == ds[1..] + rest;
      LeadingDigitsOfDigits(ds[1..], rest);
    }
  }

  /** A string that starts with neither white space nor a sign is read
      from its first character. */
  lemma ScanUnsigned(s: string)
    requires |s| > 0 && !Text.IsWhiteSpace(s[0]) && s[0] != '-' && s[0] != '+'
    ensures var whole := LeadingDigits(s);
            var rest := s[|whole|..];
            var fraction := if |rest| > 0 && rest[0] == '.' then LeadingDigits(rest[1..]) else [];
            ScanNumeral(s) == if |whole| + |fraction| == 0 then None else Some(Numeral(false, whole, fraction))
  {
    assert Text.TrimStart(s) == s;
  }

  /** Digits followed by anything that cannot continue a numeral parse as the
      number the digits denote: `parseFloat("12abc")` is 12. */
  lemma ParseFloatOfDigits(ds: string, rest: string)
    requires |ds| > 0 && AllDigits(ds)
    requires |rest| == 0 || (!IsDigit(rest[0]) && rest[0] != '.')
    ensures ParseFloat(ds + rest) == Some(DigitsValue(ds) as real)
  {
    var s := ds + rest;
    assert s[0] == ds[0];
    ScanUnsigned(s);
    LeadingDigitsOfDigits(ds, rest);
    assert s[|ds|..] == rest;
  }

  /** The value of a numeral, written out. */
  lemma NumeralValueIs(n: Numeral)
    requires AllDigits(n.whole) && AllDigits(n.fraction)
    ensures var m := DigitsValue(n.whole) as real + DigitsValue(n.fraction) as real / Pow10(|n.fraction|) as real;
            NumeralValue(n) == if n.negative then -m else m
  {
  }

  /** After white space and a sign, the numeral is read from the first
      character that is neither. */
  lemma {:induction false} ScanPadded(ws: string, sign: string, unsigned: string)
    requires Text.AllWhiteSpace(ws)
    requires sign == "" || sign == "+" || sign == "-"
    requires |unsigned| > 0 && (IsDigit(unsigned[0]) || unsigned[0] == '.')
    ensures ScanNumeral(ws + sign + unsigned) == ReadNumeral(sign == "-", unsigned)
  {
    var u := sign + unsigned;
    assert ws + sign + unsigned == ws + u;
    assert Text.TrimStart(ws + u) == u by {
      assert u[0] == if |sign| > 0 then sign[0] else unsigned[0];
      Text.TrimStartOfPadded(ws, u);
    }
    assert (u[0] == '-') == (sign == "-");
    assert (if u[0] == '-' || u[0] == '+' then u[1..] else u) == unsigned by {
      if sign != "" {
        assert u[1..] == unsigned;
      }
    }
  }

  /** The value `parseFloat` gives for the text after the white space and
      the sign. */
  function ReadValue(negative: bool, unsigned: string): Option<real>
  {
    match ReadNumeral(negative, unsigned)
    case None => None
    case Some(n) => Some(NumeralValue(n))
  }

  /** After white space and a sign, `parseFloat` reads the rest of the text. */
  lemma ParseFloatOfPadded(ws: string, sign: string, unsigned: string)
    requires Text.AllWhiteSpace(ws)
    requires sign == "" || sign == "+" || sign == "-"
    requires |unsigned| > 0 && (IsDigit(unsigned[0]) || unsigned[0] == '.')
    ensures ParseFloat(ws + sign + unsigned) == ReadValue(sign == "-", unsigned)
  {
    ScanPadded(ws, sign, unsigned);
  }

  lemma ReadValueOfNumeral(negative: bool, unsigned: string, n: Numeral, v: real)
    requires ReadNumeral(negative, unsigned) == Some(n)
    requires AllDigits(n.whole) && AllDigits(n.fraction) && NumeralValue(n) == v
    ensures ReadValue(negative, unsigned) == Some(v)
  {
  }

  /** Digits, a point, digits and a non-digit are read as that numeral. */
  lemma ReadFractionNumeral(negative: bool, whole: string, fraction: string, rest: string)
    requires AllDigits(whole) && AllDigits(fraction) && |whole| + |fraction| > 0
    requires |rest| == 0 || !IsDigit(rest[0])
    ensures ReadNumeral(negative, whole + "." + fraction + rest) == Some(Numeral(negative, whole, fraction))
  {
    var unsigned := whole + "." + fraction + rest;
    assert unsigned == whole + ("." + fraction + rest);
    LeadingDigitsOfDigits(whole, "." + fraction + rest);
    assert unsigned[|whole|..] == "." + fraction + rest;
    assert unsigned[|whole|..][1..] == fraction + rest;
    LeadingDigitsOfDigits(fraction, rest);
  }

  /** Digits followed by neither a digit nor a point are read as that integer. */
  lemma ReadIntegerNumeral(negative: bool, whole: string, rest: string)
    requires |whole| > 0 && AllDigits(whole)
    requires |rest| == 0 || (!IsDigit(rest[0]) && rest[0] != '.')
    ensures ReadNumeral(negative, whole + rest) == Some(Numeral(negative, whole, ""))
  {
    LeadingDigitsOfDigits(whole, rest);
    assert (whole + rest)[|whole|..] == rest;
  }

  // The two steps below are split so that the value the numeral denotes is
  // named by a parameter while the numeral is being read.

  lemma ReadFractionAs(negative: bool, whole: string, fraction: string, rest: string, v: real)
    requires AllDigits(whole) && AllDigits(fraction) && |whole| + |fraction| > 0
    requires |rest| == 0 || !IsDigit(rest[0])
    requires v == var m := DigitsValue(whole) as real + DigitsValue(fraction) as real / Pow10(|fraction|) as real;
                  if negative then -m else m
    ensures ReadValue(negative, whole + "." + fraction + rest) == Some(v)
  {
    ReadFractionNumeral(negative, whole, fraction, rest);
    NumeralValueIs(Numeral(negative, whole, fraction));
    ReadValueOfNumeral(negative, whole + "." + fraction + rest, Numeral(negative, whole, fraction), v);
  }

  lemma ReadIntegerAs(negative: bool, whole: string, rest: string, v: real)
    requires |whole| > 0 && AllDigits(whole)
    requires |rest| == 0 || (!IsDigit(rest[0]) && rest[0] != '.')
    requires v == if negative then -(DigitsValue(whole) as real) else DigitsValue(whole) as real
    ensures ReadValue(negative, whole + rest) == Some(v)
  {
    ReadIntegerNumeral(negative, whole, rest);
    ReadValueOfNumeral(negative, whole + rest, Numeral(negative, whole, ""), v);
  }

  /** The value of a numeral with a point that is followed by a non-digit. */
  lemma ReadFraction(negative: bool, whole: string, fraction: string, rest: string)
    requires AllDigits(whole) && AllDigits(fraction) && |whole| + |fraction| > 0
    requires |rest| == 0 || !IsDigit(rest[0])
    ensures var m := DigitsValue(whole) as real + DigitsValue(fraction) as real / Pow10(|fraction|) as real;
            ReadValue(negative, whole + "." + fraction + rest) == Some(if negative then -m else m)
  {
    var m := DigitsValue(whole) as real + DigitsValue(fraction) as real / Pow10(|fraction|) as real;
    ReadFractionAs(negative, whole, fraction, rest, if negative then -m else m);
  }

  /** The value of digits followed by neither a digit nor a point. */
  lemma ReadInteger(negative: bool, whole: string, rest: string)
    requires |whole| > 0 && AllDigits(whole)
    requires |rest| == 0 || (!IsDigit(rest[0]) && rest[0] != '.')
    ensures var m := DigitsValue(whole) as real;
            ReadValue(negative, whole + rest) == Some(if negative then -m else m)
  {
    var m := DigitsValue(whole) as real;
    ReadIntegerAs(negative, whole, rest, if negative then -m else m);
  }

  /** A numeral with a point, after any white space and sign, and followed by
      anything that is not a digit, parses as the number it denotes:
      `parseFloat(" -3.25kg")` is -3.25. */
  lemma ParseFloatOfNumeral(ws: string, sign: string, whole: string, fraction: string, rest: string)
    requires Text.AllWhiteSpace(ws)
    requires sign == "" || sign == "+" || sign == "-"
    requires AllDigits(whole) && AllDigits(fraction) && |whole| + |fraction| > 0
    requires |rest| == 0 || !IsDigit(rest[0])
    ensures var m := DigitsValue(whole) as real + DigitsValue(fraction) as real / Pow10(|fraction|) as real;
            ParseFloat(ws + sign + (whole + "." + fraction + rest)) == Some(if sign == "-" then -m else m)
  {
    var unsigned := whole + "." + fraction + rest;
    assert unsigned[0] == if |whole| > 0 then whole[0] else '.';
    ParseFloatOfPadded(ws, sign, unsigned);
    ReadFraction(sign == "-", whole, fraction, rest);
  }

  /** The same without a point: digits, after any white space and sign, and
      followed by neither a digit nor a point, parse as their integer. */
  lemma ParseFloatOfInteger(ws: string, sign: string, whole: string, rest: string)
    requires Text.AllWhiteSpace(ws)
    requires sign == "" || sign == "+" || sign == "-"
    requires |whole| > 0 && AllDigits(whole)
    requires |rest| == 0 || (!IsDigit(rest[0]) && rest[0] != '.')
    ensures var m := DigitsValue(whole) as real;
            ParseFloat(ws + sign + (whole + rest)) == Some(if sign == "-" then -m else m)
  {
    var unsigned := whole + rest;
    assert unsigned[0] == whole[0];
    ParseFloatOfPadded(ws, sign, unsigned);
    ReadInteger(sign == "-", whole, rest);
  }

  /** Rendering a natural number and parsing it back gives the number. */
  lemma ParseFloatOfNatToDecimal(n: nat)
    ensures ParseFloat(NatToDecimal(n)) == Some(n as real)
  {
    NatToDecimalValue(n);
    ParseFloatOfDigits(NatToDecimal(n), []);
    assert NatToDecimal(n) + [] == NatToDecimal(n);
  }

  /** `parseFloat("0")` is 0. */
  lemma ParseFloatZeroExample()
    ensures ParseFloat("0") == Some(0.0)
  {
    assert "0" + "" == "0";
    assert DigitsValue("0") == 0;
    ParseFloatOfDigits("0", "");
  }

  /** `parseFloat("12abc")` is 12: the trailing letters are ignored. */
  lemma ParseFloatTrailingTextExample()
    ensures ParseFloat("12abc") == Some(12.0)
  {
    assert "12" + "abc" == "12abc";
    assert DigitsValue("12") == 12 by { assert "12"[..1] == "1"; }
    ParseFloatOfDigits("12", "abc");
  }

  /** `parseFloat("-5")` is -5. */
  lemma ParseFloatNegativeExample()
    ensures ParseFloat("-5") == Some(-5.0)
  {
    assert Text.TrimStart("-5") == "-5";
    assert "-5"[1..] == "5";
    LeadingDigitsOfDigits("5", "");
    assert "5" + "" == "5";
    assert "5"[1..] == "";
    assert ScanNumeral("-5") == Some(Numeral(true, "5", ""));
    assert DigitsValue("5") == 5;
  }

  /** Digits that do not start the text, after white space and a sign, give
      `NaN`: `parseFloat("a5")` and `parseFloat("+-5")` are both `NaN`. */
  lemma ParseFloatMisplacedDigitsExample()
    ensures ParseFloat("a5").None?
    ensures ParseFloat("+-5").None?
  {
    assert Text.TrimStart("a5") == "a5";
    assert Text.TrimStart("+-5") == "+-5";
  }

  /** `parseFloat("abc")` is `NaN`. */
  lemma ParseFloatLettersExample()
    ensures ParseFloat("abc") == None
  {
    ScanUnsigned("abc");
    assert LeadingDigits("abc") == "";
  }

  /** A lone point is not a numeral. */
  lemma ParseFloatLonePointExample()
    ensures ParseFloat(".") == None
  {
    assert LeadingDigits(".") == "";
    assert "."[1..] == "";
    ScanUnsigned(".");
  }

  /** A lone sign is not a numeral. */
  lemma ParseFloatLoneSignExample()
    ensures ParseFloat("-") == None
  {
    assert Text.TrimStart("-") == "-";
    assert "-"[1..] == "";
  }

  /** `parseFloat(" 3.25")` is 3.25. */
  lemma ParseFloatFractionExample()
    ensures ParseFloat(" 3.25") == Some(3.25)
  {
    assert " 3.25"[1..] == "3.25";
    assert Text.TrimStart("3.25") == "3.25";
    assert Text.TrimStart(" 3.25") == "3.25";
    assert LeadingDigits(".25") == "";
    assert LeadingDigits("3.25") == "3";
    assert "3.25"[1..][1..] == "25";
    LeadingDigitsOfDigits("25", "");
    assert "25" + "" == "25";
    assert DigitsValue("25") == 25 by { assert "25"[..1] == "2"; }
    assert ScanNumeral(" 3.25") == Some(Numeral(false, "3", "25"));
    assert Pow10(2) == 100;
    assert Magnitude("3", "25") == 3.0 + 25.0 / 100.0;
  }

  /** `parseFloat(".5")` is 0.5: the integer part may be empty. */
  lemma ParseFloatBareFractionExample()
    ensures ParseFloat(".5") == Some(0.5)
  {
    ScanUnsigned(".5");
    assert LeadingDigits(".5") == "";
    assert ".5"[1..] == "5";
    LeadingDigitsOfDigits("5", "");
    assert "5" + "" == "5";
    assert Pow10(1) == 10;
    assert DigitsValue("5") == 5;
    assert Magnitude("", "5") == 0.0 + 5.0 / 10.0;
  }
}

=== FILE: ledger.dfy ===
/**
  The rows the server actions read and write (accounts, transactions and
  budgets) held in memory, with the queries and invariants the actions share.
 */
module Ledger {
  import opened Results
  import opened Calendar

  type UserId = string
  type AccountId = string

  datatype AccountType = Current | Savings

  datatype TransactionType = Income | Expense

  /** A transaction's `nextRecurringDate`: `null`, a date, or the Invalid Date
      a JavaScript `Date` becomes when built from an invalid one. */
  datatype NextDue = NoNextDate | NextDate(date: Date) | InvalidNextDate

  datatype Account = Account(
    id: AccountId,
    userId: UserId,
    name: string,
    kind: AccountType,
    balance: real,
    isDefault: bool,
    createdAt: int)

  datatype Transaction = Transaction(
    id: string,
    userId: UserId,
    accountId: AccountId,
    kind: TransactionType,
    amount: real,
    description: string,
    date: Date,
    category: string,
    isRecurring: bool,
    recurringInterval: string,
    nextRecurringDate: NextDue,
    createdAt: int)

  datatype Budget = Budget(id: string, userId: UserId, amount: real, lastAlertSent: Option<Date>)

  /** The database: the account and transaction tables in row order, and the
      budget table keyed by its unique `userId` column. */
  datatype Store = Store(accounts: seq<Account>, transactions: seq<Transaction>, budgets: map<UserId, Budget>)

  /** The store after a server action, and what the action returned. */
  datatype Outcome<T> = Outcome(store: Store, result: Result<T>)

  // ---------------------------------------------------------------------------
  // Lookups
  // ---------------------------------------------------------------------------

  predicate AccountIdUnused(accounts: seq<Account>, id: AccountId) {
    forall i :: 0 <= i < |accounts| ==> accounts[i].id != id
  }

  predicate TransactionIdUnused(transactions: seq<Transaction>, id: string) {
    forall i :: 0 <= i < |transactions| ==> transactions[i].id != id
  }

  predicate BudgetIdUnused(budgets: map<UserId, Budget>, id: string) {
    forall u :: u in budgets ==> budgets[u].id != id
  }

  predicate HasAccounts(accounts: seq<Account>, user: UserId) {
    exists i :: 0 <= i < |accounts| && accounts[i].userId == user
  }

  /** `where: { id, userId }`: the account with this id, provided `user` owns it. */
  function FindOwnedAccount(accounts: seq<Account>, id: AccountId, user: UserId): (r: Option<Account>)
    ensures r.Some? ==> r.value in accounts && r.value.id == id && r.value.userId == user
    ensures r.None? <==> forall i :: 0 <= i < |accounts| ==> !(accounts[i].id == id && accounts[i].userId == user)
  {
    if |accounts| == 0 then None
    else if accounts[0].id == id && accounts[0].userId == user then Some(accounts[0])
    else
      var r := FindOwnedAccount(accounts[1..], id, user);
      assert forall i :: 1 <= i < |accounts| ==> accounts[i] == accounts[1..][i - 1];
      r
  }

  /** The first of `user`'s accounts flagged default (`accounts[0]` of the
      `where: { isDefault: true }` relation). */
  function DefaultAccount(accounts: seq<Account>, user: UserId): (r: Option<Account>)
    ensures r.Some? ==> r.value in accounts && r.value.userId == user && r.value.isDefault
    ensures r.None? <==> forall i :: 0 <= i < |accounts| ==> !(accounts[i].userId == user && accounts[i].isDefault)
  {
    if |accounts| == 0 then None
    else if accounts[0].userId == user && accounts[0].isDefault then Some(accounts[0])
    else
      var r := DefaultAccount(accounts[1..], user);
      assert forall i :: 1 <= i < |accounts| ==> accounts[i] == accounts[1..][i - 1];
      r
  }

  /** `updateMany({ where: { userId, isDefault: true }, data: { isDefault: false } })` */
  function ClearDefaults(accounts: seq<Account>, user: UserId): (r: seq<Account>)
    ensures |r| == |accounts|
    ensures forall i :: 0 <= i < |r| && accounts[i].userId == user ==> r[i] == accounts[i].(isDefault := false)
    ensures forall i :: 0 <= i < |r| && accounts[i].userId != user ==> r[i] == accounts[i]
  {
    seq(|accounts|, i requires 0 <= i < |accounts| =>
      if accounts[i].userId == user && accounts[i].isDefault then accounts[i].(isDefault := false)
      else accounts[i])
  }

  // ---------------------------------------------------------------------------
  // Money
  // ---------------------------------------------------------------------------

  /** What a transaction does to its account's balance: an expense takes its
      amount away, anything else adds it. */
  function BalanceDelta(kind: TransactionType, amount: real): real {
    if kind == Expense then -amount else amount
  }

  /** The net effect on account `id` of every transaction recorded against it. */
  function SignedTotal(transactions: seq<Transaction>, id: AccountId): real {
    if |transactions| == 0 then 0.0
    else
      var t := transactions[|transactions| - 1];
      SignedTotal(transactions[..|transactions| - 1], id)
      + (if t.accountId == id then BalanceDelta(t.kind, t.amount) else 0.0)
  }

  /** An expense of `user` on account `id` dated within [start, end]. */
  predicate CountsAsExpense(t: Transaction, user: UserId, id: AccountId, start: Date, end: Date) {
    t.userId == user && t.accountId == id && t.kind == Expense &&
    OnOrBefore(start, t.date) && OnOrBefore(t.date, end)
  }

  /** `aggregate({ where: { userId, accountId, type: "EXPENSE", date: { gte, lte } }, _sum: { amount } })`,
      with an empty sum read as 0. Only matching rows contribute: with none
      the total is 0, and with non-negative amounts it is never negative. */
  function ExpenseTotal(transactions: seq<Transaction>, user: UserId, id: AccountId, start: Date, end: Date): (r: real)
    ensures (forall i :: 0 <= i < |transactions| ==> !CountsAsExpense(transactions[i], user, id, start, end)) ==> r == 0.0
    ensures (forall i :: 0 <= i < |transactions| ==> transactions[i].amount >= 0.0) ==> r >= 0.0
  {
    if |transactions| == 0 then 0.0
    else
      var init := transactions[..|transactions| - 1];
      var t := transactions[|transactions| - 1];
      assert forall i :: 0 <= i < |init| ==> init[i] == transactions[i];
      ExpenseTotal(init, user, id, start, end)
      + (if CountsAsExpense(t, user, id, start, end) then t.amount else 0.0)
  }

  /** Every transaction is dated on a real calendar day. */
  predicate DatesValid(transactions: seq<Transaction>) {
    forall i :: 0 <= i < |transactions| ==> IsValid(transactions[i].date)
  }

  /** The sum over a concatenation is the sum of the sums. */
  lemma {:induction false} ExpenseTotalAppend(a: seq<Transaction>, b: seq<Transaction>, user: UserId, id: AccountId, start: Date, end: Date)
    ensures ExpenseTotal(a + b, user, id, start, end)
            == ExpenseTotal(a, user, id, start, end) + ExpenseTotal(b, user, id, start, end)
    decreases |b|
  {
    if |b| > 0 {
      assert (a + b)[..|a + b| - 1] == a + b[..|b| - 1];
      ExpenseTotalAppend(a, b[..|b| - 1], user, id, start, end);
    } else {
      assert a + b == a;
    }
  }

  // ---------------------------------------------------------------------------
  // Invariants the actions keep
  // ---------------------------------------------------------------------------

  predicate UniqueAccountIds(accounts: seq<Account>) {
    forall i, j :: 0 <= i < j < |accounts| ==> accounts[i].id != accounts[j].id
  }

  /** No user has two default accounts. */
  predicate AtMostOneDefault(accounts: seq<Account>) {
    forall i, j ::
      (0 <= i < |accounts| && 0 <= j < |accounts| && i != j &&
       accounts[i].userId == accounts[j].userId && accounts[i].isDefault) ==> !accounts[j].isDefault
  }

  predicate HasDefault(accounts: seq<Account>, user: UserId) {
    exists j :: 0 <= j < |accounts| && accounts[j].userId == user && accounts[j].isDefault
  }

  /** Every user who has an account has a default one. */
  predicate DefaultWhenOwned(accounts: seq<Account>) {
    forall i :: 0 <= i < |accounts| ==> HasDefault(accounts, accounts[i].userId)
  }

  /** The budget table's unique key is its owner. */
  predicate BudgetsKeyedByOwner(budgets: map<UserId, Budget>) {
    forall u :: u in budgets ==> budgets[u].userId == u
  }

  predicate WellFormed(s: Store) {
    UniqueAccountIds(s.accounts) && AtMostOneDefault(s.accounts) &&
    DefaultWhenOwned(s.accounts) && BudgetsKeyedByOwner(s.budgets)
  }

  /** Under the invariant, the default account of a user is their only one. */
  lemma DefaultAccountIsUnique(accounts: seq<Account>, user: UserId, a: Account)
    requires AtMostOneDefault(accounts)
    requires a in accounts && a.userId == user && a.isDefault
    ensures DefaultAccount(accounts, user) == Some(a)
  {
  }
}

=== FILE: ordering.dfy ===
/** Selecting rows and ordering them newest first, as `findMany` with a
    `where` filter and `orderBy: { createdAt: "desc" }` returns them. */
module Ordering {

  /** Every row of `s` has a key no smaller than the rows after it. */
  predicate SortedDesc<T>(s: seq<T>, key: T -> int) {
    forall i, j :: 0 <= i < j < |s| ==> key(s[i]) >= key(s[j])
  }

  /** The rows of `s` that satisfy `keep`. */
  function Filter<T(!new)>(s: seq<T>, keep: T -> bool): (r: seq<T>)
    ensures forall x :: multiset(r)[x] == if keep(x) then multiset(s)[x] else 0
    ensures forall i :: 0 <= i < |r| ==> keep(r[i])
    ensures |r| <= |s|
  {
    if |s| == 0 then []
    else
      assert s == [s[0]] + s[1..];
      if keep(s[0]) then [s[0]] + Filter(s[1..], keep) else Filter(s[1..], keep)
  }

  /** Places `x` in the newest-first sequence `s`, ahead of every row whose key
      is not larger. */
  function InsertDesc<T>(x: T, s: seq<T>, key: T -> int): (r: seq<T>)
    requires SortedDesc(s, key)
    ensures SortedDesc(r, key)
    ensures multiset(r) == multiset(s) + multiset{x}
  {
    if |s| == 0 then [x]
    else if key(x) >= key(s[0]) then [x] + s
    else
      var tail := InsertDesc(x, s[1..], key);
      assert s == [s[0]] + s[1..];
      BoundedByHead(s, x, tail, key);
      [s[0]] + tail
  }

  /** Every row of `tail`, a reordering of `s[1..]` plus `x`, has a key no
      larger than the head of `s` when `x` does not either. */
  lemma BoundedByHead<T>(s: seq<T>, x: T, tail: seq<T>, key: T -> int)
    requires |s| > 0 && SortedDesc(s, key) && key(x) < key(s[0])
    requires multiset(tail) == multiset(s[1..]) + multiset{x}
    ensures forall i :: 0 <= i < |tail| ==> key(tail[i]) <= key(s[0])
  {
    forall i | 0 <= i < |tail| ensures key(tail[i]) <= key(s[0]) {
      assert tail[i] in multiset(tail);
      if tail[i] != x {
        assert tail[i] in multiset(s[1..]);
        var j :| 0 <= j < |s[1..]| && s[1..][j] == tail[i];
        assert s[j + 1] == tail[i];
      }
    }
  }

  /** `s` ordered newest first (ties keep no particular order, as in the
      database). */
  function SortDesc<T>(s: seq<T>, key: T -> int): (r: seq<T>)
    ensures SortedDesc(r, key)
    ensures multiset(r) == multiset(s)
  {
    if |s| == 0 then []
    else
      assert s == [s[0]] + s[1..];
      InsertDesc(s[0], SortDesc(s[1..], key), key)
  }
}

=== FILE: receipt_text.dfy ===
/**
  `cleanResponseText`: strips Markdown code-fence markers from the model's
  reply to a receipt scan before the reply is read as JSON. Every occurrence
  of three backticks, together with a directly following `json` tag and a
  directly following line feed, is deleted (a global regular-expression
  replacement, scanned left to right), and the rest is trimmed.
 */
module ReceiptText {
  import Text

  const Fence := "```"
  const JsonTag := "json"

  /** Whether a fence marker starts at position `i` of `s`. */
  predicate FenceAt(s: string, i: int) {
    0 <= i && i + 3 <= |s| && s[i] == '`' && s[i + 1] == '`' && s[i + 2] == '`'
  }

  /** No three consecutive backticks anywhere in `s`. */
  predicate NoFence(s: string) {
    forall i :: 0 <= i < |s| ==> !FenceAt(s, i)
  }

  /** `s` with its leading fence marker, and the `json` tag and line feed right
      after it when present, removed. */
  function DropMarker(s: string): (r: string)
    requires FenceAt(s, 0)
    ensures |r| <= |s| - 3 && r == s[|s| - |r|..]
  {
    var afterFence := s[3..];
    var afterTag := if |afterFence| >= 4 && afterFence[..4] == JsonTag then afterFence[4..] else afterFence;
    if |afterTag| > 0 && afterTag[0] == '\n' then afterTag[1..] else afterTag
  }

  /** `text.replace(/```(?:json)?\n?/g, "")` */
  function StripFences(s: string): (r: string)
    ensures |r| <= |s|
    decreases |s|
  {
    if |s| == 0 then []
    else if FenceAt(s, 0) then StripFences(DropMarker(s))
    else [s[0]] + StripFences(s[1..])
  }

  /** `cleanResponseText(text)` */
  function CleanResponseText(text: string): (r: string)
    ensures Text.IsTrimmed(r)
    ensures |r| <= |text|
  {
    Text.Trim(StripFences(text))
  }

  // ---------------------------------------------------------------------------
  // Properties
  // ---------------------------------------------------------------------------

  /** A string that does not start with a fence marker keeps its first
      character. */
  lemma StripFencesKeepsHead(s: string)
    requires |s| > 0 && !FenceAt(s, 0)
    ensures |StripFences(s)| > 0 && StripFences(s)[0] == s[0]
  {
  }

  /** What is left never contains a fence marker: a backtick that is kept is
      never followed, in the output, by two more. */
  lemma {:induction false} StripFencesLeavesNoFence(s: string)
    ensures NoFence(StripFences(s))
    decreases |s|
  {
    if |s| == 0 {
    } else if FenceAt(s, 0) {
      StripFencesLeavesNoFence(DropMarker(s));
    } else {
      var tail := s[1..];
      var r := StripFences(s);
      var rt := StripFences(tail);
      StripFencesLeavesNoFence(tail);
      assert r == [s[0]] + rt;
      if s[0] == '`' && |rt| >= 2 {
        // The first two characters of `tail` are not both backticks, and
        // whichever of them is not one survives into `rt`.
        assert |tail| >= 2;
        if tail[0] != '`' {
          StripFencesKeepsHead(tail);
        } else {
          assert !FenceAt(tail, 0);
          StripFencesKeepsHead(tail);
          var tail2 := tail[1..];
          assert rt == [tail[0]] + StripFences(tail2);
          assert tail2[0] != '`';
          assert !FenceAt(tail2, 0);
          StripFencesKeepsHead(tail2);
        }
        assert !FenceAt(r, 0);
      }
      forall i | 0 <= i < |r| ensures !FenceAt(r, i) {
        if i > 0 {
          assert FenceAt(r, i) ==> FenceAt(rt, i - 1);
        }
      }
    }
  }

  /** Text without backticks passes through unchanged. */
  lemma {:induction false} StripFencesWithoutBackticks(s: string)
    requires forall i :: 0 <= i < |s| ==> s[i] != '`'
    ensures StripFences(s) == s
    decreases |s|
  {
    if |s| > 0 {
      StripFencesWithoutBackticks(s[1..]);
    }
  }

  /** Trimming cannot create a fence marker. */
  lemma TrimKeepsNoFence(t: string)
    requires NoFence(t)
    ensures NoFence(Text.Trim(t))
  {
    var r := Text.Trim(t);
    var k := |t| - |Text.TrimStart(t)|;
    assert k + |r| <= |t| && r == t[k..k + |r|] by {
      Text.TrimIsSlice(t);
    }
    forall i | 0 <= i < |r| ensures !FenceAt(r, i) {
      assert FenceAt(r, i) ==> FenceAt(t, k + i);
    }
  }

  /** The cleaned reply holds no fence marker. */
  lemma CleanResponseTextHasNoFence(text: string)
    ensures NoFence(CleanResponseText(text))
  {
    StripFencesLeavesNoFence(text);
    TrimKeepsNoFence(StripFences(text));
  }

  /** A reply without backticks is only trimmed. */
  lemma CleanResponseTextOfPlainReply(text: string)
    requires forall i :: 0 <= i < |text| ==> text[i] != '`'
    ensures CleanResponseText(text) == Text.Trim(text)
  {
    StripFencesWithoutBackticks(text);
  }

  /** Text without backticks before a closing fence is kept; the fence is
      not. */
  lemma {:induction false} StripFencesBeforeClosingFence(s: string)
    requires forall i :: 0 <= i < |s| ==> s[i] != '`'
    ensures StripFences(s + Fence) == s
    decreases |s|
  {
    if |s| == 0 {
      assert s + Fence == Fence;
      assert FenceAt(Fence, 0) && DropMarker(Fence) == [];
    } else {
      assert !FenceAt(s + Fence, 0);
      assert (s + Fence)[1..] == s[1..] + Fence;
      StripFencesBeforeClosingFence(s[1..]);
    }
  }

  /** Any reply without backticks of its own, wrapped in a JSON code block,
      comes out as that reply trimmed. */
  lemma CleanFencedReply(body: string)
    requires forall i :: 0 <= i < |body| ==> body[i] != '`'
    ensures CleanResponseText(Fence + JsonTag + "\n" + body + "\n" + Fence) == Text.Trim(body)
  {
    var text := Fence + JsonTag + "\n" + body + "\n" + Fence;
    assert FenceAt(text, 0);
    assert text[3..][..4] == JsonTag;
    assert text[3..][4..] == "\n" + (body + "\n" + Fence);
    assert DropMarker(text) == (body + "\n") + Fence;
    StripFencesBeforeClosingFence(body + "\n");
    Text.TrimIgnoresTrailingWhiteSpace(body, "\n");
  }

  /** A reply wrapped in a JSON code block comes out as the bare JSON. */
  lemma CleanFencedJsonExample()
    ensures CleanResponseText("```json\n{}\n```") == "{}"
  {
    StripFencedJsonExample();
    TrimJsonLineExample();
  }

  lemma TrimJsonLineExample()
    ensures Text.Trim("{}\n") == "{}"
  {
    assert Text.SkipForward("{}\n", 0) == 0;
    assert Text.TrimStart("{}\n") == "{}\n";
    assert Text.SkipBackward("{}\n", 2) == 2;
    assert Text.SkipBackward("{}\n", 3) == 2;
    assert "{}\n"[..2] == "{}";
  }

  /** The fence, its tag and its line feed go, and so does the closing fence. */
  lemma StripFencedJsonExample()
    ensures StripFences("```json\n{}\n```") == "{}\n"
  {
    var s := "```json\n{}\n```";
    assert FenceAt(s, 0);
    assert DropMarker(s) == "{}\n```";
    StripClosingFenceExample();
  }

  /** Text before a closing fence is kept; the fence is not. */
  lemma StripClosingFenceExample()
    ensures StripFences("{}\n```") == "{}\n"
  {
    assert StripFences("```") == [] by {
      assert FenceAt("```", 0);
      assert DropMarker("```") == [];
    }
    assert StripFences("\n```") == "\n" by {
      assert !FenceAt("\n```", 0);
      assert "\n```"[1..] == "```";
    }
    assert StripFences("}\n```") == "}\n" by {
      assert !FenceAt("}\n```", 0);
      assert "}\n```"[1..] == "\n```";
    }
    assert !FenceAt("{}\n```", 0);
    assert "{}\n```"[1..] == "}\n```";
  }
}

=== FILE: results.dfy ===
/** Optional values and the success/failure shape every server action returns. */
module Results {

  /** A value that may be absent: the model of a JavaScript `null`/`undefined`. */
  datatype Option<+T> = None | Some(value: T)

  /** `{ success: true, data }` or `{ success: false, message }`. */
  datatype Result<+T> = Ok(value: T) | Err(message: string)
}

=== FILE: text.dfy ===
/** JavaScript white space and `String.prototype.trim`. */
module Text {

  /** The characters ECMAScript calls WhiteSpace or LineTerminator; `trim`,
      `trimStart` and `parseFloat` skip exactly these. */
  predicate IsWhiteSpace(c: char) {
    c == ' ' || c == '\t' || c == '\n' || c == '\r' ||
    c == '\U{000B}' || c == '\U{000C}' || c == '\U{00A0}' || c == '\U{FEFF}' ||
    c == '\U{1680}' || ('\U{2000}' <= c <= '\U{200A}') ||
    c == '\U{2028}' || c == '\U{2029}' || c == '\U{202F}' || c == '\U{205F}' || c == '\U{3000}'
  }

  predicate AllWhiteSpace(s: string) {
    forall i :: 0 <= i < |s| ==> IsWhiteSpace(s[i])
  }

  /** Neither end of `s` is white space. */
  predicate IsTrimmed(s: string) {
    |s| == 0 || (!IsWhiteSpace(s[0]) && !IsWhiteSpace(s[|s| - 1]))
  }

  /** The first position at or after `i` that is not white space (or the end). */
  function SkipForward(s: string, i: nat): (k: nat)
    requires i <= |s|
    ensures i <= k <= |s|
    ensures forall j :: i <= j < k ==> IsWhiteSpace(s[j])
    ensures k == |s| || !IsWhiteSpace(s[k])
    decreases |s| - i
  {
    if i < |s| && IsWhiteSpace(s[i]) then SkipForward(s, i + 1) else i
  }

  /** The position just after the last character before `j` that is not
      white space (or the start). */
  function SkipBackward(s: string, j: nat): (k: nat)
    requires j <= |s|
    ensures k <= j
    ensures forall m :: k <= m < j ==> IsWhiteSpace(s[m])
    ensures k == 0 || !IsWhiteSpace(s[k - 1])
  {
    if j > 0 && IsWhiteSpace(s[j - 1]) then SkipBackward(s, j - 1) else j
  }

  /** `s.trimStart()`: drops the leading white space and nothing else. */
  function TrimStart(s: string): (r: string)
    ensures |r| <= |s|
    ensures r == s[|s| - |r|..]
    ensures forall i :: 0 <= i < |s| - |r| ==> IsWhiteSpace(s[i])
    ensures |r| == 0 || !IsWhiteSpace(r[0])
  {
    s[SkipForward(s, 0)..]
  }

  /** `s.trimEnd()`: drops the trailing white space and nothing else. */
  function TrimEnd(s: string): (r: string)
    ensures |r| <= |s|
    ensures r == s[..|r|]
    ensures forall i :: |r| <= i < |s| ==> IsWhiteSpace(s[i])
    ensures |r| == 0 || !IsWhiteSpace(r[|r| - 1])
  {
    s[..SkipBackward(s, |s|)]
  }

  /** `s.trim()` */
  function Trim(s: string): (r: string)
    ensures IsTrimmed(r)
    ensures |r| <= |s|
  {
    var t := TrimStart(s);
    var r := TrimEnd(t);
    assert |r| > 0 ==> r[0] == t[0];
    r
  }

  /** Trimming removes only white space from the two ends: the result is the
      slice of `s` that remains between them. */
  lemma TrimIsSlice(s: string)
    ensures var r := Trim(s);
            var k := |s| - |TrimStart(s)|;
            k + |r| <= |s| && r == s[k..k + |r|] &&
            (forall i :: 0 <= i < k ==> IsWhiteSpace(s[i])) &&
            (forall i :: k + |r| <= i < |s| ==> IsWhiteSpace(s[i]))
  {
    var t := TrimStart(s);
    var k := |s| - |t|;
    var r := TrimEnd(t);
    forall i | k + |r| <= i < |s| ensures IsWhiteSpace(s[i]) {
      assert s[i] == t[i - k];
    }
  }

  /** The trimmed string is empty exactly when `s` is empty or all white space. */
  lemma TrimEmptyIff(s: string)
    ensures Trim(s) == [] <==> AllWhiteSpace(s)
  {
    TrimIsSlice(s);
    var k := |s| - |TrimStart(s)|;
    if Trim(s) != [] {
      assert !IsWhiteSpace(Trim(s)[0]) && Trim(s)[0] == s[k];
    }
  }

  /** A string with no white space at either end is its own trim. */
  lemma TrimOfTrimmed(s: string)
    requires IsTrimmed(s)
    ensures Trim(s) == s
  {
    assert SkipForward(s, 0) == 0;
    assert SkipBackward(s, |s|) == |s|;
  }

  /** Trimming twice is trimming once. */
  lemma TrimIdempotent(s: string)
    ensures Trim(Trim(s)) == Trim(s)
  {
    TrimOfTrimmed(Trim(s));
  }

  /** `k` is where the leading white space of `s` ends. */
  lemma SkipForwardAt(s: string, k: nat)
    requires k <= |s| && (forall j :: 0 <= j < k ==> IsWhiteSpace(s[j]))
    requires k == |s| || !IsWhiteSpace(s[k])
    ensures SkipForward(s, 0) == k
  {
  }

  /** `k` is where the trailing white space of `s` begins. */
  lemma SkipBackwardAt(s: string, k: nat)
    requires k <= |s| && (forall j :: k <= j < |s| ==> IsWhiteSpace(s[j]))
    requires k == 0 || !IsWhiteSpace(s[k - 1])
    ensures SkipBackward(s, |s|) == k
  {
  }

  /** Leading white space in front of `u` is what `trimStart` drops. */
  lemma TrimStartOfPadded(ws: string, u: string)
    requires AllWhiteSpace(ws)
    requires |u| == 0 || !IsWhiteSpace(u[0])
    ensures TrimStart(ws + u) == u
  {
    var s := ws + u;
    assert forall j :: 0 <= j < |ws| ==> s[j] == ws[j];
    SkipForwardAt(s, |ws|);
    assert s[|ws|..] == u;
  }

  /** White space appended to `s` is trimmed away with the rest. */
  lemma TrimIgnoresTrailingWhiteSpace(s: string, w: string)
    requires AllWhiteSpace(w)
    ensures Trim(s + w) == Trim(s)
  {
    var u := s + w;
    if AllWhiteSpace(s) {
      assert AllWhiteSpace(u) by {
        forall i | 0 <= i < |u| ensures IsWhiteSpace(u[i]) {
          if i >= |s| { assert u[i] == w[i - |s|]; }
        }
      }
      TrimEmptyIff(s);
      TrimEmptyIff(u);
    } else {
      var k := SkipForward(s, 0);
      assert k < |s|;
      SkipForwardAt(u, k);
      var t := TrimStart(s);
      assert TrimStart(u) == t + w;
      assert |t| > 0 && !IsWhiteSpace(t[0]);
      var j := SkipBackward(t, |t|);
      assert j > 0;
      forall i | j <= i < |t + w| ensures IsWhiteSpace((t + w)[i]) {
        if i >= |t| { assert (t + w)[i] == w[i - |t|]; }
      }
      SkipBackwardAt(t + w, j);
      assert (t + w)[..j] == t[..j];
    }
  }
}

=== FILE: transaction_actions.dfy ===
/**
  `createTransaction` and the recurrence date it stores: the rate-limit gate,
  the ownership check, the signed balance change, and the row insert plus
  balance update that commit together.
 */
module TransactionActions {
  import opened Results
  import opened Calendar
  import opened Ledger

  /** The rate limiter's verdict on one request. */
  datatype Decision = Allowed | DeniedRateLimit | DeniedOther

  /** The form data the client submits. Its `userId`, if any, is ignored. */
  datatype TransactionInput = TransactionInput(
    kind: TransactionType,
    amount: real,
    description: string,
    date: Date,
    accountId: AccountId,
    category: string,
    isRecurring: bool,
    recurringInterval: string,
    userId: UserId)

  const MsgRateLimited := "Too many requests. Please try again later."
  const MsgBlocked := "Request Blocked."
  /** What the action reports for an error whose message is empty. */
  const MsgGeneric := "An error occurred"

  /** The texts of the errors that other code raises inside the action: the
      database client's, when the account lookup by id and owner finds no row
      and when a row is written with an Invalid Date, and the script engine's,
      when the interval tag names an inherited member that throws once called. */
  datatype ForeignErrors = ForeignErrors(
    accountNotFound: string,
    invalidDate: string,
    notCallable: string -> string)

  /** The message the action reports for an error with message `m`. */
  function Reported(m: string): (r: string)
    ensures r != []
    ensures m != [] ==> r == m
    ensures m == [] ==> r == MsgGeneric
  {
    if m == [] then MsgGeneric else m
  }

  /** Whether `interval` names one of the four recurrence intervals. */
  predicate IsKnownInterval(interval: string) {
    interval == "DAILY" || interval == "WEEKLY" || interval == "MONTHLY" || interval == "YEARLY"
  }

  /** Whether looking `interval` up in the interval table finds a member every
      object inherits that throws when called with no arguments: the
      `__proto__` accessor yields the prototype object itself, which is not a
      function, and `__defineGetter__` and `__defineSetter__` demand a
      function argument. Every other inherited member returns without
      touching the date. */
  predicate ThrowsWhenCalled(interval: string) {
    interval == "__proto__" || interval == "__defineGetter__" || interval == "__defineSetter__"
  }

  /** The interval table: each known tag moves the date by its calendar step,
      an inherited member that throws gives no date, and any other tag leaves
      the date as it is. */
  function Advance(interval: string, date: Date): (r: Option<Date>)
    ensures r.None? <==> ThrowsWhenCalled(interval)
    ensures !IsKnownInterval(interval) && !ThrowsWhenCalled(interval) ==> r == Some(date)
    ensures IsValid(date) && interval == "DAILY" ==> r == Some(NextDay(date))
    ensures IsValid(date) && interval == "WEEKLY" ==> r == Some(DaysLater(date, 7))
    ensures IsValid(date) && interval == "MONTHLY" ==>
              var n := FirstOfNextMonth(date.year, date.month);
              var dn := DaysInMonth(n.year, n.month);
              var nn := FirstOfNextMonth(n.year, n.month);
              r == Some(if date.day <= dn then Date(n.year, n.month, date.day)
                        else Date(nn.year, nn.month, date.day - dn))
    ensures IsValid(date) && interval == "YEARLY" ==>
              r == Some(if date.month == 2 && date.day == 29 then Date(date.year + 1, 3, 1)
                        else Date(date.year + 1, date.month, date.day))
    ensures IsValid(date) && IsKnownInterval(interval) ==> r.Some? && Before(date, r.value)
  {
    if interval == "DAILY" then
      if IsValid(date) then AddDaysIsDaysLater(date, 1); Some(AddDays(date, 1))
      else Some(AddDays(date, 1))
    else if interval == "WEEKLY" then
      if IsValid(date) then AddDaysIsDaysLater(date, 7); Some(AddDays(date, 7))
      else Some(AddDays(date, 7))
    else if interval == "MONTHLY" then
      if IsValid(date) then AddOneMonth(date); Some(AddMonths(date, 1))
      else Some(AddMonths(date, 1))
    else if interval == "YEARLY" then
      if IsValid(date) then AddOneYear(date); Some(AddYears(date, 1))
      else Some(AddYears(date, 1))
    else if ThrowsWhenCalled(interval) then None
    else Some(date)
  }

  /** `getNextRecurringDate({ isRecurring, recurringInterval, date })`: `None`
      when the call throws. An empty `interval` stands for a missing one. */
  function NextRecurringDate(isRecurring: bool, interval: string, date: Date): (r: Option<NextDue>)
    ensures !isRecurring || interval == "" ==> r == Some(NoNextDate)
    ensures r.None? <==> isRecurring && interval != "" && ThrowsWhenCalled(interval)
    ensures isRecurring && interval != "" && !ThrowsWhenCalled(interval) && !IsValid(date) ==>
              r == Some(InvalidNextDate)
    ensures isRecurring && IsValid(date) && interval != "" && !ThrowsWhenCalled(interval) ==>
              r == Some(NextDate(Advance(interval, date).value))
    ensures isRecurring && IsValid(date) && interval != "" &&
            !IsKnownInterval(interval) && !ThrowsWhenCalled(interval) ==>
              r == Some(NextDate(date))
    ensures isRecurring && IsValid(date) && IsKnownInterval(interval) ==>
              r.Some? && r.value.NextDate? && Before(date, r.value.date)
  {
    if !isRecurring || interval == "" then Some(NoNextDate)
    else
      match Advance(interval, date)
      case None => None
      case Some(next) => if IsValid(date) then Some(NextDate(next)) else Some(InvalidNextDate)
  }

  /** Sets the balance of the account with id `id` (`account.update({ where: { id } })`). */
  function SetBalance(accounts: seq<Account>, id: AccountId, balance: real): (r: seq<Account>)
    ensures |r| == |accounts|
    ensures forall i :: 0 <= i < |r| ==>
              r[i] == if accounts[i].id == id then accounts[i].(balance := balance) else accounts[i]
  {
    seq(|accounts|, i requires 0 <= i < |accounts| =>
      if accounts[i].id == id then accounts[i].(balance := balance) else accounts[i])
  }

  /** `createTransaction(data)` by `user`, with the limiter's `decision`, the
      id the store assigns to the new row, the store's clock `now` and the
      texts `errors` of the errors other code raises. */
  function CreateTransaction(s: Store, user: UserId, decision: Decision, data: TransactionInput,
                             newId: string, now: int, errors: ForeignErrors): (o: Outcome<Transaction>)
    requires TransactionIdUnused(s.transactions, newId)
    ensures o.result.Err? ==> o.store == s
    ensures decision == DeniedRateLimit ==> o.result == Err(MsgRateLimited)
    ensures decision == DeniedOther ==> o.result == Err(MsgBlocked)
    ensures decision == Allowed && FindOwnedAccount(s.accounts, data.accountId, user).None? ==>
              o.result == Err(Reported(errors.accountNotFound))
    ensures decision == Allowed && FindOwnedAccount(s.accounts, data.accountId, user).Some? &&
            data.isRecurring && data.recurringInterval != "" && ThrowsWhenCalled(data.recurringInterval) ==>
              o.result == Err(Reported(errors.notCallable(data.recurringInterval)))
    ensures decision == Allowed && FindOwnedAccount(s.accounts, data.accountId, user).Some? &&
            NextRecurringDate(data.isRecurring, data.recurringInterval, data.date).Some? &&
            !IsValid(data.date) ==>
              o.result == Err(Reported(errors.invalidDate))
    ensures o.result.Ok? <==>
              decision == Allowed && FindOwnedAccount(s.accounts, data.accountId, user).Some? &&
              !(data.isRecurring && data.recurringInterval != "" && ThrowsWhenCalled(data.recurringInterval)) &&
              IsValid(data.date)
    ensures o.result.Ok? ==>
              var t := o.result.value;
              o.store.transactions == s.transactions + [t] && o.store.budgets == s.budgets &&
              t.id == newId && t.userId == user && t.accountId == data.accountId &&
              t.kind == data.kind && t.amount == data.amount && t.date == data.date &&
              t.description == data.description && t.category == data.category &&
              t.isRecurring == data.isRecurring && t.recurringInterval == data.recurringInterval &&
              Some(t.nextRecurringDate) == NextRecurringDate(data.isRecurring, data.recurringInterval, data.date) &&
              t.createdAt == now
    ensures o.result.Ok? ==>
              var acct := FindOwnedAccount(s.accounts, data.accountId, user).value;
              var newBalance := if data.kind == Expense then acct.balance - data.amount
                                else acct.balance + data.amount;
              |o.store.accounts| == |s.accounts| &&
              forall i :: 0 <= i < |s.accounts| ==>
                o.store.accounts[i] == if s.accounts[i].id == data.accountId
                                       then s.accounts[i].(balance := newBalance) else s.accounts[i]
  {
    match decision
    case DeniedRateLimit => Outcome(s, Err(MsgRateLimited))
    case DeniedOther => Outcome(s, Err(MsgBlocked))
    case Allowed =>
      match FindOwnedAccount(s.accounts, data.accountId, user)
      case None => Outcome(s, Err(Reported(errors.accountNotFound)))
      case Some(acct) =>
        var newBalance := acct.balance + BalanceDelta(data.kind, data.amount);
        // The row's fields are computed before the insert, inside the database
        // transaction: an error in either step rolls the whole of it back.
        match NextRecurringDate(data.isRecurring, data.recurringInterval, data.date)
        case None => Outcome(s, Err(Reported(errors.notCallable(data.recurringInterval))))
        case Some(next) =>
          if !IsValid(data.date) then
            Outcome(s, Err(Reported(errors.invalidDate)))
          else
            var t := Transaction(newId, user, data.accountId, data.kind, data.amount, data.description,
                                 data.date, data.category, data.isRecurring, data.recurringInterval,
                                 next, now);
            Outcome(Store(SetBalance(s.accounts, data.accountId, newBalance), s.transactions + [t], s.budgets), Ok(t))
  }

  // ---------------------------------------------------------------------------
  // Properties
  // ---------------------------------------------------------------------------

  /** Every account's balance minus the signed total of its transactions is
      the same before and after: the insert and the balance change always
      happen together. */
  lemma CreateTransactionKeepsBalancesInStep(s: Store, user: UserId, decision: Decision,
                                             data: TransactionInput, newId: string, now: int,
                                             errors: ForeignErrors)
    requires TransactionIdUnused(s.transactions, newId)
    requires UniqueAccountIds(s.accounts)
    ensures var o := CreateTransaction(s, user, decision, data, newId, now, errors);
            |o.store.accounts| == |s.accounts| &&
            forall i :: 0 <= i < |s.accounts| ==>
              o.store.accounts[i].id == s.accounts[i].id &&
              o.store.accounts[i].balance - SignedTotal(o.store.transactions, s.accounts[i].id)
              == s.accounts[i].balance - SignedTotal(s.transactions, s.accounts[i].id)
  {
    var o := CreateTransaction(s, user, decision, data, newId, now, errors);
    if o.result.Ok? {
      var t := o.result.value;
      var acct := FindOwnedAccount(s.accounts, data.accountId, user).value;
      assert (s.transactions + [t])[..|s.transactions|] == s.transactions;
      forall i | 0 <= i < |s.accounts|
        ensures o.store.accounts[i].balance - SignedTotal(o.store.transactions, s.accounts[i].id)
                == s.accounts[i].balance - SignedTotal(s.transactions, s.accounts[i].id)
      {
        if s.accounts[i].id == data.accountId {
          var k :| 0 <= k < |s.accounts| && s.accounts[k] == acct;
          assert s.accounts[i] == acct;
        }
      }
    }
  }

  /** Creating a transaction changes no id, owner or default flag, so the
      store's invariants survive it. */
  lemma CreateTransactionPreservesWellFormed(s: Store, user: UserId, decision: Decision,
                                             data: TransactionInput, newId: string, now: int,
                                             errors: ForeignErrors)
    requires TransactionIdUnused(s.transactions, newId)
    requires WellFormed(s)
    ensures WellFormed(CreateTransaction(s, user, decision, data, newId, now, errors).store)
  {
    var o := CreateTransaction(s, user, decision, data, newId, now, errors);
    if o.result.Ok? {
      var a, b := s.accounts, o.store.accounts;
      assert forall i :: 0 <= i < |a| ==> b[i].id == a[i].id && b[i].userId == a[i].userId && b[i].isDefault == a[i].isDefault;
      forall i | 0 <= i < |b| ensures HasDefault(b, b[i].userId) {
        var j :| 0 <= j < |a| && a[j].userId == a[i].userId && a[j].isDefault;
        assert b[j].userId == b[i].userId && b[j].isDefault;
      }
    }
  }

  /** Only transactions dated on a real calendar day are ever stored. */
  lemma CreateTransactionKeepsDatesValid(s: Store, user: UserId, decision: Decision,
                                         data: TransactionInput, newId: string, now: int,
                                         errors: ForeignErrors)
    requires TransactionIdUnused(s.transactions, newId)
    requires DatesValid(s.transactions)
    ensures DatesValid(CreateTransaction(s, user, decision, data, newId, now, errors).store.transactions)
  {
  }

  /** A balance of 1000 and an expense of 200 leave a balance of 800 and an
      expense row of 200. */
  lemma ExpenseScenario(errors: ForeignErrors)
    ensures var acct := Account("acc", "u", "Main", Current, 1000.0, true, 0);
            var s := Store([acct], [], map[]);
            var data := TransactionInput(Expense, 200.0, "rent", Date(2024, 1, 2), "acc", "housing", false, "", "someone-else");
            var o := CreateTransaction(s, "u", Allowed, data, "t1", 1, errors);
            o.result.Ok? && o.store.accounts[0].balance == 800.0 &&
            o.store.transactions == [o.result.value] &&
            o.result.value.kind == Expense && o.result.value.amount == 200.0 &&
            o.result.value.userId == "u"
  {
  }

  /** Monthly recurrence from 31 January 2023 lands on 3 March: February has
      no 31st, so the surplus days spill into the month after. */
  lemma MonthlyRecurrenceFromJanuary31()
    ensures NextRecurringDate(true, "MONTHLY", Date(2023, 1, 31)) == Some(NextDate(Date(2023, 3, 3)))
  {
  }

  /** In a leap year the same recurrence lands on 2 March. */
  lemma MonthlyRecurrenceFromJanuary31LeapYear()
    ensures NextRecurringDate(true, "MONTHLY", Date(2024, 1, 31)) == Some(NextDate(Date(2024, 3, 2)))
  {
  }

  /** Yearly recurrence from 29 February lands on 1 March. */
  lemma YearlyRecurrenceFromLeapDay()
    ensures NextRecurringDate(true, "YEARLY", Date(2024, 2, 29)) == Some(NextDate(Date(2025, 3, 1)))
  {
  }

  /** An unknown tag stores the transaction date itself; no recurrence stores
      nothing. */
  lemma RecurrenceWithoutStep()
    ensures NextRecurringDate(true, "FORTNIGHTLY", Date(2024, 5, 6)) == Some(NextDate(Date(2024, 5, 6)))
    ensures NextRecurringDate(false, "DAILY", Date(2024, 5, 6)) == Some(NoNextDate)
    ensures NextRecurringDate(true, "", Date(2024, 5, 6)) == Some(NoNextDate)
  {
  }

  /** Tags naming inherited members: `constructor` is called harmlessly and
      keeps the date, `__proto__` and `__defineGetter__` throw, and neither
      matters when the transaction does not recur. */
  lemma RecurrenceWithInheritedTag()
    ensures NextRecurringDate(true, "constructor", Date(2024, 5, 6)) == Some(NextDate(Date(2024, 5, 6)))
    ensures NextRecurringDate(true, "__proto__", Date(2024, 5, 6)) == None
    ensures NextRecurringDate(true, "__defineGetter__", Date(2024, 13, 6)) == None
    ensures NextRecurringDate(false, "__proto__", Date(2024, 5, 6)) == Some(NoNextDate)
  {
  }

  /** A recurring transaction tagged `__proto__` is not written, and no
      balance changes. */
  lemma InheritedTagScenario(errors: ForeignErrors)
    ensures var acct := Account("acc", "u", "Main", Current, 1000.0, true, 0);
            var s := Store([acct], [], map[]);
            var data := TransactionInput(Expense, 200.0, "rent", Date(2024, 1, 2), "acc", "housing", true, "__proto__", "u");
            var o := CreateTransaction(s, "u", Allowed, data, "t1", 1, errors);
            o == Outcome(s, Err(Reported(errors.notCallable("__proto__"))))
  {
  }
}
